=== FILE: README.md ===
# SilverStripe template tree builder, modelled in Dafny

This project models the tree builder of the SilverStripe template plugin for
IntelliJ: the `PsiParser` that turns the lexer's flat token stream into
nested, typed nodes in one pass. The nodes are:

- variables (`NAMED_VAR`), wrapped in one field-reference node per `.Identifier` after them;
- comments;
- theme directives with their file path;
- block heads (`<% if … %>`, `<% else %>`, `<% end_if %>`);
- statement sequences and whole block statements.

The builder opens a marker when a construct starts. It completes the
marker, drops it, or turns it into an error when the construct ends. Two
stacks hold the open blocks and their bodies until the matching `end_`
keyword arrives.

## How the model is organised

- `tokens.dfy` (`Tokens`): token kinds, tokens, node types, and the `Result`
  type that carries the two null-reference crashes of the parser.
- `grammar.dfy` (`Grammar`): the three grammar tables the parser consults
  (`STATEMENT_MAP`, `BLOCK_TYPE_MAP`, `BLOCK_STATEMENTS`).
- `marker_log.dfy` (`MarkerLog`): IntelliJ's `PsiBuilder`, reduced to a
  cursor over the tokens and a log of markers. Each marker has a start, an
  end and a status: open, done with a node type, dropped, or an error. A
  marker handle is its index in the log. `mark`, `precede`, `done`,
  `doneBefore`, `drop`, `error`, `rollbackTo`, `advanceLexer`,
  `getTokenType` and `getTokenText` are pure functions on this log.
- `base_parser.dfy` (`BaseParser`): the parser itself. Its sixteen fields,
  together with the builder, become one immutable `ParserState`. Each `if` of `beforeConsume` and
  `afterConsume` is one function, in source order. `parseTree`'s loop is
  both a recursion (`Run`) and a `while` loop (`ParseTreeLoop`) proved
  equal to it.
- `discipline.dfy` (`Discipline`): the invariant the parser keeps. It says:
  - the two stacks have the same height;
  - every body marker on the statements stack is open and appears once;
  - the block-head and comment markers are open while their flag is set;
  - the variable and theme markers are kept apart from the bodies and the
    head. The theme flag outlives its marker being open: the directive is
    completed on its own token, and the flag stays set until the next one.
- `properties.dfy` (`Properties`): lookahead, opening and dropping block
  heads, block matching and the end-of-input cleanup, one operation at a
  time.
- `references.dfy` and `provenance.dfy` (`References`, `Provenance`): no
  later step removes a field-reference node once it is made. As long as no
  block head is typed as a field reference, one iteration makes at most
  one, and only for an identifier.
- `history.dfy` (`History`): what each token kind does in one iteration,
  and what the fields remember about the tokens consumed so far. From
  these follow:
  - exactly which inputs make the parser crash;
  - the exact shape of the field-reference chains.
- `resolution.dfy` (`Resolution`): which markers a parse leaves open. Only
  comments that a later comment start superseded stay open.

All source paths below are relative to the repository root.

## Model

| member | source | states |
|---|---|---|
| BaseParser.GetNextTokenValue | src/com/raket/silverstripe/parser/SilverStripeBaseParser.java:41-47 | The checkpoint-advance-read-rollback peek leaves the builder exactly as it was (cursor and every marker). The cache then holds the kind and text of the token after the cursor, or null at the end of input. No other field changes. |
| BaseParser.GetNextToken | src/com/raket/silverstripe/parser/SilverStripeBaseParser.java:49-54 | Returns the cached kind without touching the builder. If the cache was consistent, the result is the true next token's kind and the cache stays consistent. Only the two cache fields may change. |
| BaseParser.GetNextTokenText | src/com/raket/silverstripe/parser/SilverStripeBaseParser.java:56-61 | Returns the cached text without touching the builder. If the cache was consistent, the result is the next token's text, or null at the end of input, and the cache stays consistent. Only the two cache fields may change. |
| Properties.LookaheadCached | src/com/raket/silverstripe/parser/SilverStripeBaseParser.java:49-61 | Within one iteration, a second peek returns the same kind and text as the first and still leaves the builder untouched. |
| Grammar.Lookup | src/com/raket/silverstripe/parser/SilverStripeBaseParser.java:113-114 | A map lookup with a possibly-null key yields a value exactly when the key is present and not null, and the value is the map's entry. |
| BaseParser.OpenVar | src/com/raket/silverstripe/parser/SilverStripeBaseParser.java:98-101 | A variable token appends an open marker at the cursor, sets the variable flag and points the variable field at the new marker. Any other token leaves the state exactly as it was. The cursor, the lookahead cache, both stacks and the block-head fields never change. |
| BaseParser.OpenComment | src/com/raket/silverstripe/parser/SilverStripeBaseParser.java:102-105 | A comment start appends an open marker at the cursor, sets the comment flag and points the comment field at the new marker. Any other token leaves the state exactly as it was. The cursor, the cache, both stacks and the block-head fields never change. |
| BaseParser.OpenTheme | src/com/raket/silverstripe/parser/SilverStripeBaseParser.java:106-109 | A theme token appends an open marker at the cursor, sets the theme flag and points the theme field at the new marker. Any other token leaves the state exactly as it was. The cursor, the cache, both stacks and the block-head fields never change. |
| BaseParser.OpenBlockHead | src/com/raket/silverstripe/parser/SilverStripeBaseParser.java:111-120 | Opening a block head changes neither the variable, comment and theme fields nor the chain link. The cursor does not move, and every marker it holds exists. |
| BaseParser.LapseTheme | src/com/raket/silverstripe/parser/SilverStripeBaseParser.java:122-124 | Letting a theme directive lapse touches neither the builder, nor the stacks, nor the block-head fields. |
| BaseParser.BeforeConsume | src/com/raket/silverstripe/parser/SilverStripeBaseParser.java:97-125 | beforeConsume leaves the cursor where it is. The log never shrinks and no marker's start moves. |
| BaseParser.CloseVar | src/com/raket/silverstripe/parser/SilverStripeBaseParser.java:128-132 | Closing the variable leaves the cursor, both stacks and the block-head fields unchanged. |
| BaseParser.CloseThemeDir | src/com/raket/silverstripe/parser/SilverStripeBaseParser.java:134-136 | Completing a theme directive leaves the cursor, both stacks and the block-head fields unchanged. |
| BaseParser.WrapThemePath | src/com/raket/silverstripe/parser/SilverStripeBaseParser.java:138-143 | Wrapping a theme directive in a file-path node leaves the cursor, both stacks and the block-head fields unchanged. |
| BaseParser.ChainIdentifier | src/com/raket/silverstripe/parser/SilverStripeBaseParser.java:145-151 | When the identifier clause does not crash, it leaves the cursor, both stacks and the block-head fields unchanged. |
| BaseParser.CloseComment | src/com/raket/silverstripe/parser/SilverStripeBaseParser.java:153-156 | When the comment-end clause does not crash, it leaves the cursor, both stacks and the block-head fields unchanged. |
| BaseParser.OpenBody | src/com/raket/silverstripe/parser/SilverStripeBaseParser.java:162-163 | Pushing an opener and its body changes neither the cursor nor the variable, comment and theme fields. Every marker both stacks hold exists. |
| BaseParser.NextBranch | src/com/raket/silverstripe/parser/SilverStripeBaseParser.java:166-169 | Rebasing an else branch changes neither the cursor nor the variable, comment and theme fields. Marker starts never move. |
| BaseParser.CloseBody | src/com/raket/silverstripe/parser/SilverStripeBaseParser.java:172-176 | Closing the body before a terminator changes neither the cursor nor the variable, comment and theme fields. |
| BaseParser.MatchOpener | src/com/raket/silverstripe/parser/SilverStripeBaseParser.java:177-190 | Matching a terminator against the innermost opener changes neither the cursor nor the variable, comment and theme fields. |
| BaseParser.Terminate | src/com/raket/silverstripe/parser/SilverStripeBaseParser.java:171-191 | The terminator branch changes neither the cursor nor the variable, comment and theme fields. |
| BaseParser.CloseBlock | src/com/raket/silverstripe/parser/SilverStripeBaseParser.java:158-192 | The block-end clause changes neither the cursor nor the variable, comment and theme fields. Every marker the stacks hold exists. |
| BaseParser.DropBadHead | src/com/raket/silverstripe/parser/SilverStripeBaseParser.java:194-197 | Dropping a bad head changes neither the cursor nor the variable, comment and theme fields. |
| BaseParser.AfterConsume | src/com/raket/silverstripe/parser/SilverStripeBaseParser.java:127-198 | afterConsume, when it does not crash, leaves the cursor where it is. The log never shrinks and no marker's start moves. |
| BaseParser.EofCleanup | src/com/raket/silverstripe/parser/SilverStripeBaseParser.java:200-211 | After cleanup the head flag is clear and the statements stack is empty. The block stack is unchanged, and no marker is added or loses its start. |
| Properties.BlockHeadOpens | src/com/raket/silverstripe/parser/SilverStripeBaseParser.java:111-120 | beforeConsume opens a block-head marker if and only if three things hold: the token is a block start, no head is being marked, and the next token has a statement-map entry. The new head is an open marker at the cursor. It records the keyword's text, its allowed-token set and its node type. When no head opens, the head marker and the head flag are unchanged. |
| Properties.BlockStartSkipped | src/com/raket/silverstripe/parser/SilverStripeBaseParser.java:111-120 | A block start that does not open a head leaves the marker log and the head flag unchanged. |
| Properties.EarlyClausesKeepHead | src/com/raket/silverstripe/parser/SilverStripeBaseParser.java:127-156 | The variable, theme, identifier and comment clauses of afterConsume leave alone the open block head, its fields, both stacks and the discipline. |
| Properties.BadHeadDropped | src/com/raket/silverstripe/parser/SilverStripeBaseParser.java:194-197 | Inside a head, a token other than the block end keeps the head exactly when the head's allowed set contains it. Otherwise the head marker is dropped and the flag cleared. Either way both stacks are unchanged. |
| Properties.StructuralPush | src/com/raket/silverstripe/parser/SilverStripeBaseParser.java:158-164 | A structural head is completed as a node of its own type. The opener record (head, keyword text) and a new open body marker at the cursor are pushed onto the two stacks, which keep equal heights. |
| Properties.PlainHeadCompleted | src/com/raket/silverstripe/parser/SilverStripeBaseParser.java:158-160 | A head whose type is neither a block statement, nor an else or else-if branch, nor a terminator is completed as a node of its own type, ending at the cursor. The head flag is cleared. Both stacks, the log length and every other marker are unchanged. |
| Properties.BranchRebase | src/com/raket/silverstripe/parser/SilverStripeBaseParser.java:165-170 | An else or else-if head completes the innermost body so that it ends where the head starts. It then opens the next body in the same stack slot. The block stack is untouched. With no open body, neither stack nor the log length changes. |
| Properties.TerminatorMatch | src/com/raket/silverstripe/parser/SilverStripeBaseParser.java:171-191 | A terminator pops at most one entry from each stack. It makes a block-statement node from its opener to the cursor exactly when its text is `end_` followed by the opener's keyword text. On a mismatch the popped body is dropped; on a match it is a completed statement sequence ending where the terminator's head starts. With an empty block stack nothing is matched and no node is added. |
| Properties.OpenerMatched | src/com/raket/silverstripe/parser/SilverStripeBaseParser.java:177-190 | The matching half alone: it pops the innermost opener and wraps a block-statement node around it exactly on a text match. It drops the handed-over body exactly on a mismatch. With an empty block stack the state is unchanged. |
| Properties.CleanupPost | src/com/raket/silverstripe/parser/SilverStripeBaseParser.java:200-211 | After cleanup: an unclosed head is an error element carrying its keyword text and ending at the cursor, and the head flag is cleared. An open comment is dropped. Every body marker is dropped and the statements stack is empty. The block stack is left as it was. |
| BaseParser.DrainStatements | src/com/raket/silverstripe/parser/SilverStripeBaseParser.java:208-210 | Every marker on the statements stack is dropped, and the stack ends empty. No other marker and no other field changes. |
| BaseParser.Step | src/com/raket/silverstripe/parser/SilverStripeBaseParser.java:87-92 | One iteration consumes exactly one token and clears the lookahead cache. The marker log never shrinks, and no marker's start moves. |
| BaseParser.Run | src/com/raket/silverstripe/parser/SilverStripeBaseParser.java:86-93 | Unless it crashes, the loop ends with the cursor at the end of the input. |
| BaseParser.ParseTree | src/com/raket/silverstripe/parser/SilverStripeBaseParser.java:83-95 | Unless it crashes, parseTree consumes the whole input and leaves the statements stack empty. |
| BaseParser.ParseTreeLoop | src/com/raket/silverstripe/parser/SilverStripeBaseParser.java:83-95 | The `while` loop as written computes what the recursive ParseTree computes. It runs exactly once per remaining token before the cleanup. |
| BaseParser.Parse | src/com/raket/silverstripe/parser/SilverStripeBaseParser.java:71-80 | The root marker (index 0) is completed with the caller's root type and the wrapper (index 1) as a statement sequence. Both span the entire input. |
| Discipline.InitialInv | src/com/raket/silverstripe/parser/SilverStripeBaseParser.java:71-73 | The state a parse starts from keeps the discipline and sits on an iteration boundary. |
| Discipline.BeforeConsumeInv | src/com/raket/silverstripe/parser/SilverStripeBaseParser.java:97-125 | beforeConsume keeps the discipline: equal stack heights, open and distinct bodies, the head and comment markers open while flagged, and the variable and theme markers apart from the bodies and the head. |
| Discipline.CloseBlockInv | src/com/raket/silverstripe/parser/SilverStripeBaseParser.java:158-192 | The block-end clause keeps the two stacks at equal heights and every remaining body open. This holds for structural heads, else branches and terminators. |
| Discipline.MatchOpenerInv | src/com/raket/silverstripe/parser/SilverStripeBaseParser.java:177-190 | Matching or mismatching a terminator keeps the discipline, given that the body it handed over has already left the statements stack. |
| Discipline.AfterConsumeInv | src/com/raket/silverstripe/parser/SilverStripeBaseParser.java:127-198 | afterConsume, when it does not crash, keeps the discipline. |
| Discipline.StepInv | src/com/raket/silverstripe/parser/SilverStripeBaseParser.java:86-93 | A whole iteration keeps the discipline. It ends with no variable pending and an empty cache. |
| Discipline.RunInv | src/com/raket/silverstripe/parser/SilverStripeBaseParser.java:86-93 | The loop keeps the discipline to the end of the input. |
| Discipline.BeforeConsumeSetsVar | src/com/raket/silverstripe/parser/SilverStripeBaseParser.java:97-101 | Only a variable token sets the variable flag. |
| Discipline.AfterConsumeClearsVar | src/com/raket/silverstripe/parser/SilverStripeBaseParser.java:128-132 | A variable flag set for the token just consumed is cleared by afterConsume. No clause sets it again. |
| References.StepRefs | src/com/raket/silverstripe/parser/SilverStripeBaseParser.java:86-93 | An iteration keeps every field-reference node at its index, unchanged. It also keeps the comment marker, and the variable and theme markers while their flags are set, pointing at markers that are not field-reference nodes. |
| References.RunRefs | src/com/raket/silverstripe/parser/SilverStripeBaseParser.java:86-93 | The whole loop keeps every field-reference node, unchanged. |
| References.EofCleanupRefs | src/com/raket/silverstripe/parser/SilverStripeBaseParser.java:200-211 | The cleanup resolves only open markers, so it keeps every field-reference node. |
| References.ParseTreeRefs | src/com/raket/silverstripe/parser/SilverStripeBaseParser.java:83-95 | Every field-reference node present when parseTree starts is still there, unchanged, when it returns. |
| Provenance.CompleteMakesRef | src/com/raket/silverstripe/parser/SilverStripeBaseParser.java:150 | Completing a marker can make a new field-reference node only at that marker, and only when the type given is the field-reference type. |
| Provenance.BeforeConsumeMakesNoRefs | src/com/raket/silverstripe/parser/SilverStripeBaseParser.java:97-125 | beforeConsume makes no field-reference node, and changes no existing field-reference node. |
| Provenance.BeforeConsumeKeepsHeadClear | src/com/raket/silverstripe/parser/SilverStripeBaseParser.java:111-120 | Under a grammar that types no keyword as a field reference, beforeConsume records no field-reference head type. |
| Provenance.ChainIdentifierMakesRef | src/com/raket/silverstripe/parser/SilverStripeBaseParser.java:145-151 | Any field-reference node the identifier clause makes is at the old end of the log, and only on an identifier. Every other field-reference node was one before. |
| Provenance.AfterConsumeMakesRef | src/com/raket/silverstripe/parser/SilverStripeBaseParser.java:127-198 | When the recorded head type is not the field-reference type, every field-reference node after afterConsume was one before, except possibly the one at the old end of the log, and that one only on an identifier. Under a grammar that types no head as a field reference, the recorded head type stays clear of it. |
| Provenance.StepMakesRef | src/com/raket/silverstripe/parser/SilverStripeBaseParser.java:86-93 | Under a grammar that types no keyword as a field reference, an iteration makes no field-reference node except, on an identifier, the one at the old end of the log. |
| Provenance.EofCleanupMakesNoRefs | src/com/raket/silverstripe/parser/SilverStripeBaseParser.java:200-211 | The cleanup makes no field-reference node. |
| History.BeforeFields | src/com/raket/silverstripe/parser/SilverStripeBaseParser.java:97-125 | beforeConsume sets the variable flag exactly for a variable token. It points the variable, comment or theme field at the marker it opens. A theme directive stays pending only for a theme token, or for a string while one is pending. |
| History.BeforeLog | src/com/raket/silverstripe/parser/SilverStripeBaseParser.java:97-125 | beforeConsume changes no existing marker. It appends one open marker at the cursor for a variable, comment start or theme token. It appends none for any token but these and a block start. |
| History.AfterFields | src/com/raket/silverstripe/parser/SilverStripeBaseParser.java:127-198 | afterConsume crashes exactly in two cases: an identifier with neither a chain link nor a variable marker, or a comment end with no comment marker. Otherwise it closes the variable and resets the chain, makes the identifier's node the new link, clears the comment flag on a comment end, and ends a pending theme directive on a string. |
| History.EarlyFields | src/com/raket/silverstripe/parser/SilverStripeBaseParser.java:128-143 | The variable and theme clauses reset the chain only on a variable token. They clear the theme state only on a string after a theme token. The comment fields are untouched. |
| History.StepCrashes | src/com/raket/silverstripe/parser/SilverStripeBaseParser.java:145-156 | An iteration crashes exactly on an identifier with neither a link nor a variable marker, or on a comment end with no comment marker. |
| History.StepMarks | src/com/raket/silverstripe/parser/SilverStripeBaseParser.java:98-151 | After an iteration the variable marker is the variable token's new marker. The chain link is reset by a variable and replaced by an identifier's new node. Every other token leaves both. |
| History.StepComment | src/com/raket/silverstripe/parser/SilverStripeBaseParser.java:102-156 | After an iteration the comment marker is the comment start's new marker. The comment flag is set by a comment start, cleared by a comment end, and otherwise kept. |
| History.StepTheme | src/com/raket/silverstripe/parser/SilverStripeBaseParser.java:106-143 | After an iteration a theme directive is pending exactly when the token was a theme token. The theme marker is cleared by a string that ended a pending directive. |
| History.AfterVar | src/com/raket/silverstripe/parser/SilverStripeBaseParser.java:128-132 | After a variable token, its marker becomes a named-variable node ending at the cursor. |
| History.AfterIdentifier | src/com/raket/silverstripe/parser/SilverStripeBaseParser.java:145-151 | With a link or a variable marker, an identifier wraps the link, or the variable if there is no link yet. It makes a field-reference node from the wrapped marker's start to the cursor. |
| History.AfterThemeVar | src/com/raket/silverstripe/parser/SilverStripeBaseParser.java:134-136 | After a theme token, its marker becomes a theme-directive node ending at the cursor. |
| History.AfterString | src/com/raket/silverstripe/parser/SilverStripeBaseParser.java:138-143 | A string after a pending theme directive wraps it in a theme-file-path node ending at the cursor. Any other string adds no marker. |
| History.AfterCommentStart | src/com/raket/silverstripe/parser/SilverStripeBaseParser.java:153-156 | afterConsume leaves a comment start's marker as it is. |
| History.AfterCommentEnd | src/com/raket/silverstripe/parser/SilverStripeBaseParser.java:153-156 | A comment end completes the comment marker as a comment node ending at the cursor. |
| History.VarStep | src/com/raket/silverstripe/parser/SilverStripeBaseParser.java:98-132 | A variable token becomes a named-variable node covering exactly that one token. It becomes the variable marker and resets the chain. |
| History.IdentifierStep | src/com/raket/silverstripe/parser/SilverStripeBaseParser.java:145-151 | An identifier succeeds exactly when there is a link or a variable marker. It then adds one field-reference node from the wrapped marker's start through itself, and that node becomes the link. |
| History.ThemeVarStep | src/com/raket/silverstripe/parser/SilverStripeBaseParser.java:106-136 | A theme token becomes a theme-directive node covering exactly that one token. It stays pending for the next token. |
| History.StringStep | src/com/raket/silverstripe/parser/SilverStripeBaseParser.java:138-143 | A string right after a pending directive adds a theme-file-path node from the directive's start through the string. Any other string adds no node. Either way no directive is pending afterwards. |
| History.CommentStartStep | src/com/raket/silverstripe/parser/SilverStripeBaseParser.java:102-105 | A comment start opens the comment marker at itself and sets the flag. An earlier comment marker is left exactly as it was, even if still open. |
| History.CommentEndStep | src/com/raket/silverstripe/parser/SilverStripeBaseParser.java:153-156 | A comment end succeeds exactly when there is a comment marker. It then completes that marker as a comment node ending after itself, and clears the flag. |
| History.RecordedStep | src/com/raket/silverstripe/parser/SilverStripeBaseParser.java:86-93 | An iteration keeps four facts about the tokens consumed so far. The variable marker is the last variable's. The comment marker and flag follow the last comment start and end. The chain head and every identifier's link are field-reference nodes from the last variable before them. A theme directive is pending exactly after a theme token. |
| History.StepGood | src/com/raket/silverstripe/parser/SilverStripeBaseParser.java:86-93 | An iteration crashes exactly on an identifier with no variable token before it, or on a comment end with no comment start before it. Otherwise it keeps everything the loop relies on. |
| History.RunGood | src/com/raket/silverstripe/parser/SilverStripeBaseParser.java:86-93 | The loop crashes exactly when a token still to be consumed is such a crashing token. |
| History.ParseCrashes | src/com/raket/silverstripe/parser/SilverStripeBaseParser.java:145-156 | A whole parse fails exactly when the input has an identifier with no variable token before it, or a comment end with no comment start before it. |
| History.ParseTreeLinks | src/com/raket/silverstripe/parser/SilverStripeBaseParser.java:145-151 | After parseTree of crash-free input, every identifier has a field-reference node from the last variable token before it through itself. |
| History.ThemePathPairing | src/com/raket/silverstripe/parser/SilverStripeBaseParser.java:138-143 | A string makes a theme-file-path node exactly when the token right before it is a theme token. The node covers exactly those two tokens. |
| History.StepExact | src/com/raket/silverstripe/parser/SilverStripeBaseParser.java:145-151 | After an iteration, every field-reference node is the link of an identifier consumed so far, and no two field-reference nodes end at the same token. |
| History.RunExact | src/com/raket/silverstripe/parser/SilverStripeBaseParser.java:86-93 | The loop makes no field-reference node but the identifiers' links, and never two ending at the same token. |
| History.CleanupExact | src/com/raket/silverstripe/parser/SilverStripeBaseParser.java:200-211 | The cleanup keeps that property. |
| History.CleanupDistinct | src/com/raket/silverstripe/parser/SilverStripeBaseParser.java:200-211 | The cleanup keeps field-reference nodes ending at distinct tokens. |
| History.ParseTreeChain | src/com/raket/silverstripe/parser/SilverStripeBaseParser.java:145-151 | After parseTree of crash-free input, a field-reference node spans tokens `s` to `e` if and only if token `e-1` is an identifier and token `s` is the last variable before it. No two field-reference nodes end at the same token, so each such span carries exactly one node. So the chain after a variable has one node per identifier since that variable, each nested in the next. |
| Resolution.StepAccounts | src/com/raket/silverstripe/parser/SilverStripeBaseParser.java:97-198 | From a state whose open markers are all accounted for, an iteration leaves every open marker accounted for. Accounted means one of: the root or wrapper marker, a body on the statements stack, the head, comment, variable or theme marker while its flag is set, or a comment whose start token a later comment start follows. |
| Resolution.RunAccounts | src/com/raket/silverstripe/parser/SilverStripeBaseParser.java:86-93 | The loop keeps every open marker accounted for, through the end of the input. |
| Resolution.CleanupAccounts | src/com/raket/silverstripe/parser/SilverStripeBaseParser.java:200-211 | After the cleanup, every open marker is the root or wrapper marker or a superseded comment. |
| Resolution.ParseTreeAccounts | src/com/raket/silverstripe/parser/SilverStripeBaseParser.java:83-95 | After parseTree, every open marker is the root or wrapper marker or a superseded comment. |
| Resolution.ParseResolves | src/com/raket/silverstripe/parser/SilverStripeBaseParser.java:71-80 | After a successful parse, every marker still open starts at a comment-start token that a later comment start follows. Every other marker is completed, dropped or an error. |

## Left out

- BaseParser.OpenBlockHead: its own contract states only what it leaves unchanged. What it does to the markers and fields is stated by Properties.BlockHeadOpens.
- BaseParser.LapseTheme: its own contract states only what it leaves unchanged. What it does to the markers and fields is stated by History.BeforeFields.
- BaseParser.BeforeConsume: its own contract states only what it leaves unchanged. What it does to the markers and fields is stated by History.BeforeFields, History.BeforeLog and Properties.BlockHeadOpens.
- BaseParser.CloseVar: its own contract states only what it leaves unchanged. What it does to the markers and fields is stated by History.AfterVar.
- BaseParser.CloseThemeDir: its own contract states only what it leaves unchanged. What it does to the markers and fields is stated by History.AfterThemeVar.
- BaseParser.WrapThemePath: its own contract states only what it leaves unchanged. What it does to the markers and fields is stated by History.AfterString.
- BaseParser.ChainIdentifier: its own contract states only what it leaves unchanged. What it does to the markers and fields is stated by History.AfterIdentifier.
- BaseParser.CloseComment: its own contract states only what it leaves unchanged. What it does to the markers and fields is stated by History.AfterCommentEnd.
- BaseParser.OpenBody: its own contract states only what it leaves unchanged. What it does to the markers and fields is stated by Properties.StructuralPush.
- BaseParser.NextBranch: its own contract states only what it leaves unchanged. What it does to the markers and fields is stated by Properties.BranchRebase.
- BaseParser.CloseBody: its own contract states only what it leaves unchanged. What it does to the markers and fields is stated by Properties.TerminatorMatch.
- BaseParser.MatchOpener: its own contract states only what it leaves unchanged. What it does to the markers and fields is stated by Properties.OpenerMatched.
- BaseParser.Terminate: its own contract states only what it leaves unchanged. What it does to the markers and fields is stated by Properties.TerminatorMatch.
- BaseParser.CloseBlock: its own contract states only what it leaves unchanged. What it does to the markers and fields is stated by Properties.StructuralPush, Properties.BranchRebase, Properties.TerminatorMatch and Properties.PlainHeadCompleted.
- BaseParser.DropBadHead: its own contract states only what it leaves unchanged. What it does to the markers and fields is stated by Properties.BadHeadDropped.
- BaseParser.AfterConsume: its own contract states only what it leaves unchanged. What it does to the fields, and when it crashes, is stated by History.AfterFields. What it does to the markers is stated by History.AfterVar, History.AfterIdentifier, History.AfterThemeVar, History.AfterString, History.AfterCommentStart and History.AfterCommentEnd for the early clauses, and by Properties.StructuralPush, Properties.BranchRebase, Properties.TerminatorMatch, Properties.OpenerMatched, Properties.PlainHeadCompleted and Properties.BadHeadDropped for the block-end and bad-head clauses.
- BaseParser.EofCleanup: its own contract states only what it leaves unchanged. What it does to the markers and fields is stated by Properties.CleanupPost.
- SilverStripeTemplateHighlighter.java: editor colouring is outside the tree builder.
- The lexer and the contents of the grammar tables (SilverStripeParserStatements) are not part of this model. The tables are a parameter.
- Grammar tables: parsing and the lemmas about it require that each keyword with a statement-map entry also has a node type. Without one, the block-end clause dereferences a null type.
- History.ParseTreeChain, History.StepExact, History.RunExact, Provenance.StepMakesRef, Provenance.BeforeConsumeKeepsHeadClear: these also require that no keyword's node type is the field-reference type. The model assumes this of the tables, which are a parameter of the model.
- Provenance.AfterConsumeMakesRef: requires that the recorded head type is not the field-reference type. Otherwise the block-end clause completes the head as a field-reference node below the old end of the log.
- Grammar.Lookup: a lookup with a null key yields no entry. This is how `HashMap.get` behaves when a block start is the last token (line 113); a map that rejects null keys would throw there instead. The model assumes the tables are such maps.
- History.ParseTreeChain, History.ParseTreeLinks: stated for parseTree's result, not parse's. parse completes the root marker with a caller-chosen type, which could itself be the field-reference type.
- The `PsiBuilder` internals are reduced to the marker log: tree construction (`getTreeBuilt`), debug mode and marker-consistency checks. Dropping an already completed marker, as the terminator mismatch path does with the body it has just completed, only sets the marker's status to dropped. Completing a marker that is already done, as a second comment end does with the comment marker, overwrites its end and type; `PsiBuilder` instead reports the marker as already done.
- The unclosed-statement message goes through the localised message bundle. The error marker carries the raw keyword text instead of the localised message.
- Reusing one parser instance for a second parse is not modelled. Every parse starts from freshly initialised fields, and the block stack left over by unmatched openers is not carried forward.
- Null dereferences other than the two reachable ones (identifier with no variable marker, comment end with no comment marker) cannot arise under the grammar requirement above. Two behaviours are modelled as written: a nested comment start leaves the earlier comment marker open, and the cleanup does not clear the comment flag. Resolution.ParseResolves shows that such superseded comments are the only markers a parse leaves open.
- beforeConsume keeps the theme flag set for a string token (line 122), so that afterConsume can wrap the pending directive in a file-path node (lines 138-143). The model keeps it the same way.

=== FILE: base_parser.dfy ===
/** The single-pass tree builder of SilverStripeBaseParser, as pure step
    functions over an immutable parser state that carries the marker log. */
module BaseParser {
  import opened Tokens
  import opened Grammar
  import opened MarkerLog

  /** An entry of the open-block stack: the completed opener's marker and
      the literal text of its keyword. */
  datatype OpenBlock = OpenBlock(marker: nat, text: string)

  /** The parser's fields; every `Option` is a Java reference that may be
      null, every `nat` that names a marker is an index into `b.log`.
      Stacks have their top at the end of the sequence. */
  datatype ParserState = ParserState(
    b: Builder,
    nextToken: Option<TokenKind>,
    nextTokenText: Option<string>,
    blockStack: seq<OpenBlock>,
    statementsStack: seq<nat>,
    varMarker: Option<nat>,
    blockMarker: Option<nat>,
    commentMarker: Option<nat>,
    markingVar: bool,
    markingBlock: bool,
    markingComment: bool,
    blockTokenText: Option<string>,
    blockType: Option<NodeType>,
    blockStartTokens: Option<set<TokenKind>>,
    identifierMarker: Option<nat>,
    markingTheme: bool,
    themeMarker: Option<nat>)

  /** A freshly constructed parser over builder `b`. */
  function Initial(b: Builder): ParserState {
    ParserState(b, None, None, [], [], None, None, None, false, false, false,
                None, None, None, None, false, None)
  }

  function Top<T>(s: seq<T>): T
    requires |s| > 0
  {
    s[|s| - 1]
  }

  function Pop<T>(s: seq<T>): seq<T>
    requires |s| > 0
  {
    s[..|s| - 1]
  }

  predicate Held(p: ParserState, o: Option<nat>) {
    o.Some? ==> o.value < |p.b.log|
  }

  predicate AllBelow(s: seq<nat>, n: nat) {
    forall i :: 0 <= i < |s| ==> s[i] < n
  }

  predicate OpenersBelow(s: seq<OpenBlock>, n: nat) {
    forall i :: 0 <= i < |s| ==> s[i].marker < n
  }

  /** Well-formedness: the cursor is in range, every marker the parser holds
      exists in the log, and every flag has the references it relies on. */
  predicate Wf(p: ParserState) {
    && p.b.pos <= |p.b.tokens|
    && Held(p, p.varMarker)
    && Held(p, p.blockMarker)
    && Held(p, p.commentMarker)
    && Held(p, p.identifierMarker)
    && Held(p, p.themeMarker)
    && AllBelow(p.statementsStack, |p.b.log|)
    && OpenersBelow(p.blockStack, |p.b.log|)
    && (p.markingVar ==> p.varMarker.Some?)
    && (p.markingTheme ==> p.themeMarker.Some?)
    && (p.markingComment ==> p.commentMarker.Some?)
    && (p.markingBlock ==>
          p.blockMarker.Some? && p.blockType.Some? && p.blockStartTokens.Some? && p.blockTokenText.Some?)
  }

  /** Kind of the token after the current one, null if there is none. */
  function NextKind(b: Builder): Option<TokenKind> {
    if b.pos + 1 < |b.tokens| then Some(b.tokens[b.pos + 1].kind) else None
  }

  /** Text of the token after the current one, null if there is none. */
  function NextText(b: Builder): Option<string> {
    if b.pos + 1 < |b.tokens| then Some(b.tokens[b.pos + 1].text) else None
  }

  /** Same token sequence and same cursor position. */
  predicate SamePosition(p: ParserState, q: ParserState) {
    q.b.pos == p.b.pos && q.b.tokens == p.b.tokens
  }

  /** The variable, comment and theme fields and the chain head agree:
      block matching and head dropping never touch them. */
  predicate SameMarks(p: ParserState, q: ParserState) {
    && q.varMarker == p.varMarker && q.markingVar == p.markingVar
    && q.commentMarker == p.commentMarker && q.markingComment == p.markingComment
    && q.identifierMarker == p.identifierMarker
    && q.themeMarker == p.themeMarker && q.markingTheme == p.markingTheme
  }

  /** Both stacks and the block-head fields agree: only block matching and
      head dropping touch them. */
  predicate SameBlocks(p: ParserState, q: ParserState) {
    && q.blockStack == p.blockStack && q.statementsStack == p.statementsStack
    && q.markingBlock == p.markingBlock && q.blockMarker == p.blockMarker
    && q.blockStartTokens == p.blockStartTokens && q.blockType == p.blockType
    && q.blockTokenText == p.blockTokenText
  }

  /** Same cursor and same lookahead cache. */
  predicate SameCursor(p: ParserState, q: ParserState) {
    && SamePosition(p, q)
    && q.nextToken == p.nextToken && q.nextTokenText == p.nextTokenText
  }

  /** The lookahead cache holds nothing, or the true next token. */
  predicate CacheOk(p: ParserState) {
    && (p.nextToken.Some? ==> p.nextToken == NextKind(p.b))
    && (p.nextTokenText.Some? ==> p.nextTokenText == NextText(p.b))
  }

  // ---------------------------------------------------------------------
  // Lookahead

  /** getNextTokenValue: checkpoint, advance, read, roll back. The builder
      comes back exactly as it was; the cache holds the following token. */
  function GetNextTokenValue(p: ParserState): (r: ParserState)
    requires Wf(p)
    ensures r.b == p.b
    ensures r.nextToken == NextKind(p.b) && r.nextTokenText == NextText(p.b)
    ensures r == p.(nextToken := r.nextToken, nextTokenText := r.nextTokenText)
  {
    var rb := |p.b.log|;
    var b1 := Advance(Mark(p.b));
    var next := TokenType(b1);
    var nextText := TokenText(b1);
    var b2 := RollbackTo(b1, rb);
    assert b2.log == p.b.log;
    p.(b := b2, nextToken := next, nextTokenText := nextText)
  }

  /** getNextToken: the cached kind, peeking only when the cache is empty. */
  function GetNextToken(p: ParserState): (r: (ParserState, Option<TokenKind>))
    requires Wf(p)
    ensures r.0.b == p.b && r.1 == r.0.nextToken
    ensures CacheOk(p) ==> r.1 == NextKind(p.b) && CacheOk(r.0)
    ensures r.0 == p.(nextToken := r.0.nextToken, nextTokenText := r.0.nextTokenText)
  {
    if p.nextToken.None? then
      var q := GetNextTokenValue(p);
      (q, q.nextToken)
    else
      (p, p.nextToken)
  }

  /** getNextTokenText: the cached text, peeking only when the cache is empty. */
  function GetNextTokenText(p: ParserState): (r: (ParserState, Option<string>))
    requires Wf(p)
    ensures r.0.b == p.b && r.1 == r.0.nextTokenText
    ensures CacheOk(p) ==> r.1 == NextText(p.b) && CacheOk(r.0)
    ensures r.0 == p.(nextToken := r.0.nextToken, nextTokenText := r.0.nextTokenText)
  {
    if p.nextTokenText.None? then
      var q := GetNextTokenValue(p);
      (q, q.nextTokenText)
    else
      (p, p.nextTokenText)
  }

  // ---------------------------------------------------------------------
  // beforeConsume, one function per `if` of the source, in source order

  function OpenVar(p: ParserState, t: TokenKind): (r: ParserState)
    requires Wf(p)
    ensures Wf(r) && Extends(p.b.log, r.b.log) && SameCursor(p, r)
    ensures SameBlocks(p, r)
    ensures t == Var ==>
              r.markingVar && r.varMarker == Some(|p.b.log|) && r.b.log == p.b.log + [Marker(p.b.pos, p.b.pos, Open)]
    ensures t != Var ==> r == p
  {
    if t == Var then
      p.(b := Mark(p.b), varMarker := Some(|p.b.log|), markingVar := true)
    else p
  }

  function OpenComment(p: ParserState, t: TokenKind): (r: ParserState)
    requires Wf(p)
    ensures Wf(r) && Extends(p.b.log, r.b.log) && SameCursor(p, r)
    ensures SameBlocks(p, r)
    ensures t == CommentStart ==>
              r.markingComment && r.commentMarker == Some(|p.b.log|) && r.b.log == p.b.log + [Marker(p.b.pos, p.b.pos, Open)]
    ensures t != CommentStart ==> r == p
  {
    if t == CommentStart then
      p.(b := Mark(p.b), commentMarker := Some(|p.b.log|), markingComment := true)
    else p
  }

  function OpenTheme(p: ParserState, t: TokenKind): (r: ParserState)
    requires Wf(p)
    ensures Wf(r) && Extends(p.b.log, r.b.log) && SameCursor(p, r)
    ensures SameBlocks(p, r)
    ensures t == ThemeVar ==>
              r.markingTheme && r.themeMarker == Some(|p.b.log|) && r.b.log == p.b.log + [Marker(p.b.pos, p.b.pos, Open)]
    ensures t != ThemeVar ==> r == p
  {
    if t == ThemeVar then
      p.(b := Mark(p.b), themeMarker := Some(|p.b.log|), markingTheme := true)
    else p
  }

  /** A block-start token outside a block head peeks at the keyword after it;
      a keyword with an entry in the statement map opens a head marker. */
  function OpenBlockHead(p: ParserState, g: Tables, t: TokenKind): (r: ParserState)
    requires Wf(p) && CacheOk(p) && g.Valid()
    ensures Wf(r) && Extends(p.b.log, r.b.log)
    ensures SameMarks(p, r)
    ensures r.b.pos == p.b.pos && r.b.tokens == p.b.tokens
    ensures r.b.log == p.b.log || r.b.log == Mark(p.b).log
    ensures t != BlockStart ==> r == p
  {
    if t == BlockStart && !p.markingBlock then
      var (p1, next) := GetNextToken(p);
      var p2 := p1.(nextToken := next,
                    blockStartTokens := Lookup(g.statementMap, next),
                    blockType := Lookup(g.blockTypeMap, next));
      if p2.blockStartTokens.Some? then
        var (p3, text) := GetNextTokenText(p2);
        p3.(blockTokenText := text, b := Mark(p3.b),
            blockMarker := Some(|p3.b.log|), markingBlock := true)
      else p2
    else p
  }

  /** Any token other than the theme marker or a string ends a theme directive. */
  function LapseTheme(p: ParserState, t: TokenKind): (r: ParserState)
    requires Wf(p)
    ensures Wf(r) && r.b == p.b
    ensures SameBlocks(p, r)
  {
    if p.markingTheme && t != ThemeVar && t != StringLit then p.(markingTheme := false) else p
  }

  function BeforeConsume(p: ParserState, g: Tables, t: TokenKind): (r: ParserState)
    requires Wf(p) && CacheOk(p) && g.Valid()
    ensures Wf(r) && Extends(p.b.log, r.b.log)
    ensures r.b.pos == p.b.pos && r.b.tokens == p.b.tokens
  {
    var p1 := OpenVar(p, t);
    var p2 := OpenComment(p1, t);
    var p3 := OpenTheme(p2, t);
    var p4 := OpenBlockHead(p3, g, t);
    ExtendsTrans(p.b.log, p1.b.log, p2.b.log);
    ExtendsTrans(p.b.log, p2.b.log, p3.b.log);
    ExtendsTrans(p.b.log, p3.b.log, p4.b.log);
    LapseTheme(p4, t)
  }

  // ---------------------------------------------------------------------
  // afterConsume, one function per `if` of the source, in source order

  function CloseVar(p: ParserState, t: TokenKind): (r: ParserState)
    requires Wf(p)
    ensures Wf(r) && Extends(p.b.log, r.b.log) && SamePosition(p, r)
    ensures SameBlocks(p, r)
  {
    if t == Var && p.markingVar then
      p.(b := Complete(p.b, p.varMarker.value, NamedVar), markingVar := false, identifierMarker := None)
    else p
  }

  function CloseThemeDir(p: ParserState, t: TokenKind): (r: ParserState)
    requires Wf(p)
    ensures Wf(r) && Extends(p.b.log, r.b.log) && SamePosition(p, r)
    ensures SameBlocks(p, r)
  {
    if p.markingTheme && t == ThemeVar then
      p.(b := Complete(p.b, p.themeMarker.value, ThemeDir))
    else p
  }

  /** A string right after a theme directive wraps the directive in a file-path node. */
  function WrapThemePath(p: ParserState, t: TokenKind): (r: ParserState)
    requires Wf(p)
    ensures Wf(r) && Extends(p.b.log, r.b.log) && SamePosition(p, r)
    ensures SameBlocks(p, r)
  {
    if t == StringLit && p.markingTheme then
      var b1 := Precede(p.b, p.themeMarker.value);
      p.(b := Complete(b1, |p.b.log|, ThemeFilePath), markingTheme := false, themeMarker := None)
    else p
  }

  /** Each identifier wraps the current chain link (the variable marker for
      the first one) in a new field-reference node. */
  function ChainIdentifier(p: ParserState, t: TokenKind): (r: Result<ParserState>)
    requires Wf(p)
    ensures r.Success? ==> Wf(r.value) && Extends(p.b.log, r.value.b.log) && SamePosition(p, r.value)
    ensures r.Success? ==> SameBlocks(p, r.value)
  {
    if t == Identifier then
      var inner :- if p.identifierMarker.Some? then Success(p.identifierMarker.value)
                   else if p.varMarker.Some? then Success(p.varMarker.value)
                   else Failure(NullVarMarker);
      var b1 := Precede(p.b, inner);
      Success(p.(b := Complete(b1, |p.b.log|, FieldReference), identifierMarker := Some(|p.b.log|)))
    else Success(p)
  }

  function CloseComment(p: ParserState, t: TokenKind): (r: Result<ParserState>)
    requires Wf(p)
    ensures r.Success? ==> Wf(r.value) && Extends(p.b.log, r.value.b.log) && SamePosition(p, r.value)
    ensures r.Success? ==> SameBlocks(p, r.value)
  {
    if t == CommentEnd then
      if p.commentMarker.None? then Failure(NullCommentMarker)
      else Success(p.(b := Complete(p.b, p.commentMarker.value, CommentStatement), markingComment := false))
    else Success(p)
  }

  /** Structural opener: push it on the block stack and open its body. */
  function OpenBody(p: ParserState, head: nat): (r: ParserState)
    requires Wf(p) && head < |p.b.log| && p.blockTokenText.Some?
    ensures Wf(r) && Extends(p.b.log, r.b.log) && SamePosition(p, r)
    ensures SameMarks(p, r)
  {
    p.(blockStack := p.blockStack + [OpenBlock(head, p.blockTokenText.value)],
       b := Mark(p.b),
       statementsStack := p.statementsStack + [|p.b.log|])
  }

  /** Else or else-if: close the current body before the branch head and open
      the next body; nothing happens when no body is open. */
  function NextBranch(p: ParserState, head: nat): (r: ParserState)
    requires Wf(p) && head < |p.b.log|
    ensures Wf(r) && Extends(p.b.log, r.b.log) && SamePosition(p, r)
    ensures SameMarks(p, r)
  {
    if |p.statementsStack| > 0 then
      var b1 := CompleteBefore(p.b, Top(p.statementsStack), Statements, head);
      p.(b := Mark(b1), statementsStack := Pop(p.statementsStack) + [|b1.log|])
    else p
  }

  /** Terminator, first half: pop the current body, if any, and close it
      before the terminator head. */
  function CloseBody(p: ParserState, terminator: nat): (r: ParserState)
    requires Wf(p) && terminator < |p.b.log|
    ensures Wf(r) && Extends(p.b.log, r.b.log) && SamePosition(p, r)
    ensures SameMarks(p, r)
  {
    if |p.statementsStack| > 0 then
      p.(b := CompleteBefore(p.b, Top(p.statementsStack), Statements, terminator),
         statementsStack := Pop(p.statementsStack))
    else p
  }

  /** Terminator, second half: compare with the innermost opener. On a match
      a block-statement node is wrapped around the opener; on a mismatch the
      opener is forgotten and the body popped in the first half is dropped. */
  function MatchOpener(p: ParserState, body: Option<nat>): (r: ParserState)
    requires Wf(p) && Held(p, body)
    ensures Wf(r) && Extends(p.b.log, r.b.log) && SamePosition(p, r)
    ensures SameMarks(p, r)
  {
    if |p.blockStack| > 0 then
      var level := Top(p.blockStack);
      if Some("end_" + level.text) == p.blockTokenText then
        var b1 := Precede(p.b, level.marker);
        p.(b := Complete(b1, |p.b.log|, BlockStatement), blockStack := Pop(p.blockStack))
      else
        var p1 := p.(blockStack := Pop(p.blockStack));
        if body.Some? then p1.(b := Drop(p1.b, body.value)) else p1
    else p
  }

  /** The terminator branch of block matching. */
  function Terminate(p: ParserState, terminator: nat): (r: ParserState)
    requires Wf(p) && terminator < |p.b.log|
    ensures Wf(r) && Extends(p.b.log, r.b.log) && SamePosition(p, r)
    ensures SameMarks(p, r)
  {
    var body := if |p.statementsStack| > 0 then Some(Top(p.statementsStack)) else None;
    var p1 := CloseBody(p, terminator);
    var r := MatchOpener(p1, body);
    ExtendsTrans(p.b.log, p1.b.log, r.b.log);
    r
  }

  /** A block-end token inside a head completes the head with its node type
      and runs block matching on that type. */
  function CloseBlock(p: ParserState, g: Tables, t: TokenKind): (r: ParserState)
    requires Wf(p)
    ensures Wf(r) && Extends(p.b.log, r.b.log) && SamePosition(p, r)
    ensures SameMarks(p, r)
  {
    if p.markingBlock && t == BlockEnd then
      var head := p.blockMarker.value;
      var kind := p.blockType.value;
      var p1 := p.(b := Complete(p.b, head, kind), markingBlock := false);
      var r :=
        if kind in g.blockStatements then OpenBody(p1, head)
        else if kind == ElseIfStatement || kind == ElseStatement then NextBranch(p1, head)
        else if kind == BlockEndStatement then Terminate(p1, head)
        else p1;
      ExtendsTrans(p.b.log, p1.b.log, r.b.log);
      r
    else p
  }

  /** A token that may not appear in the current block head discards the head. */
  function DropBadHead(p: ParserState, t: TokenKind): (r: ParserState)
    requires Wf(p)
    ensures Wf(r) && Extends(p.b.log, r.b.log) && SamePosition(p, r)
    ensures SameMarks(p, r)
  {
    if p.markingBlock && t !in p.blockStartTokens.value then
      p.(b := Drop(p.b, p.blockMarker.value), markingBlock := false)
    else p
  }

  function AfterConsume(p: ParserState, g: Tables, t: TokenKind): (r: Result<ParserState>)
    requires Wf(p)
    ensures r.Success? ==> Wf(r.value) && Extends(p.b.log, r.value.b.log)
    ensures r.Success? ==> r.value.b.pos == p.b.pos && r.value.b.tokens == p.b.tokens
  {
    var p1 := CloseVar(p, t);
    var p2 := CloseThemeDir(p1, t);
    var p3 := WrapThemePath(p2, t);
    var p4 :- ChainIdentifier(p3, t);
    var p5 :- CloseComment(p4, t);
    var p6 := CloseBlock(p5, g, t);
    var p7 := DropBadHead(p6, t);
    ExtendsTrans(p.b.log, p1.b.log, p2.b.log);
    ExtendsTrans(p.b.log, p2.b.log, p3.b.log);
    ExtendsTrans(p.b.log, p3.b.log, p4.b.log);
    ExtendsTrans(p.b.log, p4.b.log, p5.b.log);
    ExtendsTrans(p.b.log, p5.b.log, p6.b.log);
    ExtendsTrans(p.b.log, p6.b.log, p7.b.log);
    Success(p7)
  }

  // ---------------------------------------------------------------------
  // The drive loop

  /** beforeConsume, token by token: at most one of its opening clauses
      applies, so it is that clause followed by the theme lapse. */
  lemma BeforeConsumeByToken(p: ParserState, g: Tables, t: TokenKind)
    requires Wf(p) && CacheOk(p) && g.Valid()
    ensures var r := BeforeConsume(p, g, t);
            && (t == Var ==> r == LapseTheme(OpenVar(p, t), t))
            && (t == CommentStart ==> r == LapseTheme(OpenComment(p, t), t))
            && (t == ThemeVar ==> r == LapseTheme(OpenTheme(p, t), t))
            && (t == BlockStart ==> r == LapseTheme(OpenBlockHead(p, g, t), t))
            && (t != Var && t != CommentStart && t != ThemeVar && t != BlockStart ==> r == LapseTheme(p, t))
  {
  }

  /** One iteration of parseTree: classify, consume, resolve, clear the cache. */
  function Step(p: ParserState, g: Tables): (r: Result<ParserState>)
    requires Wf(p) && CacheOk(p) && g.Valid() && !Eof(p.b)
    ensures r.Success? ==> Wf(r.value) && CacheOk(r.value) && Extends(p.b.log, r.value.b.log)
    ensures r.Success? ==> r.value.b.pos == p.b.pos + 1 && r.value.b.tokens == p.b.tokens
    ensures r.Success? ==> r.value.nextToken.None? && r.value.nextTokenText.None?
  {
    var t := p.b.tokens[p.b.pos].kind;
    var p1 := BeforeConsume(p, g, t);
    var p2 := p1.(b := Advance(p1.b));
    var p3 :- AfterConsume(p2, g, t);
    Success(p3.(nextToken := None, nextTokenText := None))
  }

  /** The loop of parseTree as a recursion over the remaining tokens. */
  function Run(p: ParserState, g: Tables): (r: Result<ParserState>)
    requires Wf(p) && CacheOk(p) && g.Valid()
    ensures r.Success? ==> Wf(r.value) && Extends(p.b.log, r.value.b.log)
    ensures r.Success? ==> r.value.b.pos == |p.b.tokens| && r.value.b.tokens == p.b.tokens
    decreases |p.b.tokens| - p.b.pos
  {
    if Eof(p.b) then Success(p)
    else
      var q :- Step(p, g);
      Run(q, g)
  }

  // ---------------------------------------------------------------------
  // eofCleanup

  /** Drops the markers of stack `s`, popping from the top. */
  function DropAll(b: Builder, s: seq<nat>): (r: Builder)
    requires AllBelow(s, |b.log|)
    ensures r.tokens == b.tokens && r.pos == b.pos && Extends(b.log, r.log) && |r.log| == |b.log|
    ensures forall i :: 0 <= i < |s| ==> r.log[s[i]].status == Dropped
    ensures forall k :: 0 <= k < |b.log| && k !in s ==> r.log[k] == b.log[k]
    decreases |s|
  {
    if |s| == 0 then b
    else
      var m := Top(s);
      var b1 := Drop(b, m);
      var r := DropAll(b1, Pop(s));
      assert forall i :: 0 <= i < |s| - 1 ==> Pop(s)[i] == s[i];
      assert r.log[m].status == Dropped by {
        if m in Pop(s) {
          var i :| 0 <= i < |Pop(s)| && Pop(s)[i] == m;
        }
      }
      r
  }

  /** Pops and drops every remaining statements marker. */
  function DrainStatements(p: ParserState): (r: ParserState)
    requires Wf(p)
    ensures Wf(r) && r.statementsStack == [] && SamePosition(p, r)
    ensures Extends(p.b.log, r.b.log) && |r.b.log| == |p.b.log|
    ensures forall i :: 0 <= i < |p.statementsStack| ==> r.b.log[p.statementsStack[i]].status == Dropped
    ensures forall k :: 0 <= k < |p.b.log| && k !in p.statementsStack ==> r.b.log[k] == p.b.log[k]
    ensures r == p.(b := r.b, statementsStack := [])
  {
    p.(b := DropAll(p.b, p.statementsStack), statementsStack := [])
  }

  function EofCleanup(p: ParserState): (r: ParserState)
    requires Wf(p)
    ensures Wf(r) && Extends(p.b.log, r.b.log) && |r.b.log| == |p.b.log|
    ensures !r.markingBlock && r.statementsStack == [] && r.blockStack == p.blockStack
    ensures r.b.pos == p.b.pos && r.b.tokens == p.b.tokens
  {
    var p1 :=
      if p.markingBlock then
        p.(b := ErrorMark(p.b, p.blockMarker.value, p.blockTokenText.value), markingBlock := false)
      else p;
    var p2 := if p1.markingComment then p1.(b := Drop(p1.b, p1.commentMarker.value)) else p1;
    DrainStatements(p2)
  }

  /** parseTree: the loop over every token, then the cleanup. */
  function ParseTree(p: ParserState, g: Tables): (r: Result<ParserState>)
    requires Wf(p) && CacheOk(p) && g.Valid()
    ensures r.Success? ==> Wf(r.value) && Extends(p.b.log, r.value.b.log)
    ensures r.Success? ==> r.value.b.pos == |p.b.tokens| && r.value.statementsStack == []
  {
    var q :- Run(p, g);
    Success(EofCleanup(q))
  }

  /** The builder a parse starts from: cursor at the first token, root
      marker 0 and statement-sequence marker 1 open. */
  function StartBuilder(tokens: seq<Token>): Builder {
    Mark(Mark(Builder(tokens, 0, [])))
  }

  /** parse: the root marker and a statement-sequence marker around the
      whole parse, both completed over the entire input. */
  function Parse(g: Tables, root: NodeType, tokens: seq<Token>): (r: Result<Builder>)
    requires g.Valid()
    ensures r.Success? ==> r.value.tokens == tokens && r.value.pos == |tokens| && |r.value.log| >= 2
    ensures r.Success? ==> r.value.log[0] == Marker(0, |tokens|, Done(root))
    ensures r.Success? ==> r.value.log[1] == Marker(0, |tokens|, Done(Statements))
  {
    var q :- ParseTree(Initial(StartBuilder(tokens)), g);
    Success(Complete(Complete(q.b, 1, Statements), 0, root))
  }

  /** parseTree's while loop as written: it consumes every token, one per
      iteration, and computes what the recursive reference `ParseTree` does. */
  method ParseTreeLoop(p0: ParserState, g: Tables) returns (r: Result<ParserState>, iterations: nat)
    requires Wf(p0) && CacheOk(p0) && g.Valid()
    ensures r == ParseTree(p0, g)
    ensures r.Success? ==> iterations == |p0.b.tokens| - p0.b.pos
  {
    var p := p0;
    iterations := 0;
    while !Eof(p.b)
      invariant Wf(p) && CacheOk(p) && p.b.tokens == p0.b.tokens
      invariant p0.b.pos <= p.b.pos <= |p.b.tokens|
      invariant iterations == p.b.pos - p0.b.pos
      invariant Run(p, g) == Run(p0, g)
      decreases |p.b.tokens| - p.b.pos
    {
      var t := p.b.tokens[p.b.pos].kind;
      ghost var before := p;
      p := BeforeConsume(p, g, t);
      p := p.(b := Advance(p.b));
      var after := AfterConsume(p, g, t);
      assert Step(before, g) == (if after.Failure? then Failure(after.error)
                                 else Success(after.value.(nextToken := None, nextTokenText := None)));
      if after.Failure? {
        return Failure(after.error), iterations;
      }
      p := after.value.(nextToken := None, nextTokenText := None);
      iterations := iterations + 1;
    }
    r := Success(EofCleanup(p));
  }
}

=== FILE: discipline.dfy ===
/** The marker discipline the parser keeps between (and within) iterations:
    the two stacks grow and shrink together, every body marker on the
    statements stack is open and held once, the block-head and comment
    markers are open while their flag is set, and the variable and theme
    markers are kept apart from the bodies and the head. The theme flag
    outlives its marker being open: the directive is completed on its own
    token, and the flag stays set until the next token. */
module Discipline {
  import opened Tokens
  import opened Grammar
  import opened MarkerLog
  import opened BaseParser

  predicate NoDuplicates(s: seq<nat>) {
    forall i, j :: 0 <= i < j < |s| ==> s[i] != s[j]
  }

  predicate AllOpen(log: seq<Marker>, s: seq<nat>) {
    forall i :: 0 <= i < |s| ==> s[i] < |log| && log[s[i]].status == Open
  }

  /** `m` is neither an open body nor the open block head, so resolving `m`
      leaves both of those open. */
  predicate Apart(p: ParserState, m: nat) {
    && m !in p.statementsStack
    && (p.markingBlock && p.blockMarker.Some? ==> m != p.blockMarker.value)
  }

  /** Both stacks have the same height. */
  predicate InStep(p: ParserState) {
    |p.statementsStack| == |p.blockStack|
  }

  predicate Inv(p: ParserState) {
    InStep(p) && Marked(p)
  }

  /** Everything but the stack heights. */
  predicate Marked(p: ParserState) {
    && Wf(p)
    && NoDuplicates(p.statementsStack)
    && AllOpen(p.b.log, p.statementsStack)
    && (p.markingBlock ==>
          p.b.log[p.blockMarker.value].status == Open && p.blockMarker.value !in p.statementsStack)
    && (p.commentMarker.Some? ==> Apart(p, p.commentMarker.value))
    && (p.markingComment ==> p.b.log[p.commentMarker.value].status == Open)
    && (p.markingVar ==> Apart(p, p.varMarker.value) && p.commentMarker != p.varMarker)
    && (p.markingTheme ==> Apart(p, p.themeMarker.value) && p.commentMarker != p.themeMarker)
  }

  /** Between iterations: no variable marker pending and the lookahead cache cleared. */
  predicate Boundary(p: ParserState) {
    !p.markingVar && p.nextToken.None? && p.nextTokenText.None?
  }

  lemma InitialInv(tokens: seq<Token>)
    ensures Inv(Initial(StartBuilder(tokens))) && Boundary(Initial(StartBuilder(tokens)))
  {
  }

  // ---------------------------------------------------------------------
  // One lemma per clause of beforeConsume and afterConsume

  lemma OpenVarInv(p: ParserState, t: TokenKind)
    requires Inv(p)
    ensures Inv(OpenVar(p, t))
  {
  }

  lemma OpenCommentInv(p: ParserState, t: TokenKind)
    requires Inv(p)
    ensures Inv(OpenComment(p, t))
  {
  }

  lemma OpenThemeInv(p: ParserState, t: TokenKind)
    requires Inv(p)
    ensures Inv(OpenTheme(p, t))
  {
  }

  lemma OpenBlockHeadInv(p: ParserState, g: Tables, t: TokenKind)
    requires Inv(p) && CacheOk(p) && g.Valid()
    ensures Inv(OpenBlockHead(p, g, t))
  {
  }

  lemma BeforeConsumeInv(p: ParserState, g: Tables, t: TokenKind)
    requires Inv(p) && CacheOk(p) && g.Valid()
    ensures Inv(BeforeConsume(p, g, t))
  {
    var p1 := OpenVar(p, t);
    OpenVarInv(p, t);
    var p2 := OpenComment(p1, t);
    OpenCommentInv(p1, t);
    var p3 := OpenTheme(p2, t);
    OpenThemeInv(p2, t);
    OpenBlockHeadInv(p3, g, t);
  }

  lemma CloseVarInv(p: ParserState, t: TokenKind)
    requires Inv(p)
    ensures Inv(CloseVar(p, t))
  {
  }

  lemma CloseThemeDirInv(p: ParserState, t: TokenKind)
    requires Inv(p)
    ensures Inv(CloseThemeDir(p, t))
  {
  }

  lemma WrapThemePathInv(p: ParserState, t: TokenKind)
    requires Inv(p)
    ensures Inv(WrapThemePath(p, t))
  {
  }

  lemma ChainIdentifierInv(p: ParserState, t: TokenKind)
    requires Inv(p)
    ensures ChainIdentifier(p, t).Success? ==> Inv(ChainIdentifier(p, t).value)
  {
  }

  lemma CloseCommentInv(p: ParserState, t: TokenKind)
    requires Inv(p)
    ensures CloseComment(p, t).Success? ==> Inv(CloseComment(p, t).value)
  {
  }

  lemma OpenBodyInv(p: ParserState, head: nat)
    requires Inv(p) && !p.markingBlock && head < |p.b.log| && p.blockTokenText.Some?
    ensures Inv(OpenBody(p, head))
  {
  }

  lemma NextBranchInv(p: ParserState, head: nat)
    requires Inv(p) && !p.markingBlock && head < |p.b.log|
    ensures Inv(NextBranch(p, head))
  {
  }

  lemma CloseBodyInv(p: ParserState, head: nat)
    requires Inv(p) && !p.markingBlock && head < |p.b.log|
    ensures var r := CloseBody(p, head);
            && Marked(r) && !r.markingBlock
            && |r.blockStack| == |r.statementsStack| + (if |p.statementsStack| > 0 then 1 else 0)
            && (|p.statementsStack| == 0 ==> r.statementsStack == [])
            && (|p.statementsStack| > 0 ==>
                  Top(p.statementsStack) !in r.statementsStack
                  && r.commentMarker != Some(Top(p.statementsStack)))
  {
    if |p.statementsStack| > 0 {
      var r := CloseBody(p, head);
      var top := Top(p.statementsStack);
      assert forall i :: 0 <= i < |r.statementsStack| ==> r.statementsStack[i] == p.statementsStack[i];
      assert top !in r.statementsStack;
      assert AllOpen(r.b.log, r.statementsStack);
    }
  }

  lemma MatchOpenerInv(p: ParserState, body: Option<nat>)
    requires Marked(p) && !p.markingBlock && Held(p, body)
    requires |p.blockStack| == |p.statementsStack| + (if body.Some? then 1 else 0)
    requires body.Some? ==> body.value !in p.statementsStack && p.commentMarker != body
    requires body.None? ==> p.statementsStack == []
    ensures Inv(MatchOpener(p, body))
  {
    var r := MatchOpener(p, body);
    var n := |p.b.log|;
    if |p.blockStack| > 0 {
      if Some("end_" + Top(p.blockStack).text) == p.blockTokenText {
        assert |r.b.log| == n + 1 && forall k :: 0 <= k < n ==> r.b.log[k] == p.b.log[k];
      } else {
        assert |r.b.log| == n && forall k :: 0 <= k < n && k != body.value ==> r.b.log[k] == p.b.log[k];
      }
    } else {
      assert r == p;
    }
  }

  lemma TerminateInv(p: ParserState, head: nat)
    requires Inv(p) && !p.markingBlock && head < |p.b.log|
    ensures Inv(Terminate(p, head))
  {
    var body := if |p.statementsStack| > 0 then Some(Top(p.statementsStack)) else None;
    CloseBodyInv(p, head);
    MatchOpenerInv(CloseBody(p, head), body);
  }

  lemma CloseBlockInv(p: ParserState, g: Tables, t: TokenKind)
    requires Inv(p)
    ensures Inv(CloseBlock(p, g, t))
  {
    if p.markingBlock && t == BlockEnd {
      var head := p.blockMarker.value;
      var p1 := p.(b := Complete(p.b, head, p.blockType.value), markingBlock := false);
      assert Inv(p1);
      OpenBodyInv(p1, head);
      NextBranchInv(p1, head);
      TerminateInv(p1, head);
    }
  }

  lemma DropBadHeadInv(p: ParserState, t: TokenKind)
    requires Inv(p)
    ensures Inv(DropBadHead(p, t))
  {
  }

  lemma AfterConsumeInv(p: ParserState, g: Tables, t: TokenKind)
    requires Inv(p)
    ensures AfterConsume(p, g, t).Success? ==> Inv(AfterConsume(p, g, t).value)
  {
    var p1 := CloseVar(p, t);
    CloseVarInv(p, t);
    var p2 := CloseThemeDir(p1, t);
    CloseThemeDirInv(p1, t);
    var p3 := WrapThemePath(p2, t);
    WrapThemePathInv(p2, t);
    ChainIdentifierInv(p3, t);
    var r4 := ChainIdentifier(p3, t);
    if r4.Success? {
      var p4 := r4.value;
      CloseCommentInv(p4, t);
      var r5 := CloseComment(p4, t);
      if r5.Success? {
        var p5 := r5.value;
        CloseBlockInv(p5, g, t);
        DropBadHeadInv(CloseBlock(p5, g, t), t);
      }
    }
  }

  /** The state after beforeConsume and the advance keeps the discipline;
      only a variable token leaves the variable flag set. */
  lemma ConsumeInv(p: ParserState, g: Tables, t: TokenKind)
    requires Inv(p) && Boundary(p) && g.Valid() && !Eof(p.b)
    ensures var p1 := BeforeConsume(p, g, t);
            var p2 := p1.(b := Advance(p1.b));
            Inv(p2) && (p2.markingVar ==> t == Var)
  {
    var p1 := BeforeConsume(p, g, t);
    BeforeConsumeInv(p, g, t);
    BeforeConsumeSetsVar(p, g, t);
    AdvanceInv(p1);
  }

  lemma AdvanceInv(p: ParserState)
    requires Inv(p) && !Eof(p.b)
    ensures Inv(p.(b := Advance(p.b)))
  {
    var q := p.(b := Advance(p.b));
    assert q.b.log == p.b.log;
    assert Wf(q);
  }

  /** A whole iteration keeps the discipline and ends on a boundary. */
  lemma StepInv(p: ParserState, g: Tables)
    requires Inv(p) && Boundary(p) && g.Valid() && !Eof(p.b)
    ensures Step(p, g).Success? ==> Inv(Step(p, g).value) && Boundary(Step(p, g).value)
  {
    var t := p.b.tokens[p.b.pos].kind;
    var p1 := BeforeConsume(p, g, t);
    var p2 := p1.(b := Advance(p1.b));
    ConsumeInv(p, g, t);
    AfterConsumeInv(p2, g, t);
    AfterConsumeClearsVar(p2, g, t);
    var r := AfterConsume(p2, g, t);
    if r.Success? {
        assert Step(p, g) == Success(r.value.(nextToken := None, nextTokenText := None));
    }
  }

  /** Only a variable token sets the variable flag. */
  lemma BeforeConsumeSetsVar(p: ParserState, g: Tables, t: TokenKind)
    requires Wf(p) && CacheOk(p) && g.Valid() && !p.markingVar
    ensures BeforeConsume(p, g, t).markingVar ==> t == Var
  {
    var p1 := OpenVar(p, t);
    var p2 := OpenComment(p1, t);
    var p3 := OpenTheme(p2, t);
    var p4 := OpenBlockHead(p3, g, t);
    assert p4.markingVar == p1.markingVar;
  }

  /** The variable flag set before consuming a variable token is cleared
      after it, and no other token sets it. */
  lemma AfterConsumeClearsVar(p: ParserState, g: Tables, t: TokenKind)
    requires Wf(p) && (p.markingVar ==> t == Var)
    ensures AfterConsume(p, g, t).Success? ==> !AfterConsume(p, g, t).value.markingVar
  {
    var p3 := WrapThemePath(CloseThemeDir(CloseVar(p, t), t), t);
    assert !p3.markingVar;
    var r4 := ChainIdentifier(p3, t);
    if r4.Success? {
      assert !r4.value.markingVar;
      var r5 := CloseComment(r4.value, t);
      if r5.Success? {
        assert !r5.value.markingVar;
        var p6 := CloseBlock(r5.value, g, t);
        assert AfterConsume(p, g, t) == Success(DropBadHead(p6, t));
      }
    }
  }

  lemma RunInv(p: ParserState, g: Tables)
    requires Inv(p) && Boundary(p) && g.Valid()
    ensures Run(p, g).Success? ==> Inv(Run(p, g).value) && Boundary(Run(p, g).value)
    decreases |p.b.tokens| - p.b.pos
  {
    if !Eof(p.b) {
      StepInv(p, g);
      var q := Step(p, g);
      if q.Success? {
        RunInv(q.value, g);
      }
    }
  }
}

=== FILE: grammar.dfy ===
/** The grammar tables the tree builder consults. Their contents belong to a
    file outside this model, so they are a parameter of every parse. */
module Grammar {
  import opened Tokens

  /** `statementMap`: keyword token kind to the set of token kinds allowed
      inside that block head (STATEMENT_MAP).
      `blockTypeMap`: keyword token kind to the node type of the head
      (BLOCK_TYPE_MAP).
      `blockStatements`: the structural node types, which open a body that
      needs a matching terminator (BLOCK_STATEMENTS). */
  datatype Tables = Tables(
    statementMap: map<TokenKind, set<TokenKind>>,
    blockTypeMap: map<TokenKind, NodeType>,
    blockStatements: set<NodeType>)
  {
    /** Every keyword that may open a block head also has a node type;
        otherwise completing the head would dereference a null type. */
    predicate Valid() {
      statementMap.Keys <= blockTypeMap.Keys
    }
  }

  /** `Map.get` on a possibly-null key: absent keys and a null key give null. */
  function Lookup<K, V>(m: map<K, V>, k: Option<K>): (r: Option<V>)
    ensures r.Some? <==> k.Some? && k.value in m
    ensures r.Some? ==> r.value == m[k.value]
  {
    if k.Some? && k.value in m then Some(m[k.value]) else None
  }
}

=== FILE: history.dfy ===
/** What one iteration does for each token kind the parser names, and what
    the parser's fields remember about the tokens consumed so far: the last
    variable, the last comment start, the field-reference chain since the
    last variable, and a pending theme directive. From these follows exactly
    which token sequences make the parse crash. */
module History {
  import opened Tokens
  import opened Grammar
  import opened MarkerLog
  import opened BaseParser
  import opened Discipline
  import opened References
  import opened Provenance

  // ---------------------------------------------------------------------
  // Field effects of the two halves of an iteration

  /** The first three clauses of beforeConsume open the marker of a
      variable, comment start or theme token at the cursor. */
  lemma OpenFields(p: ParserState, t: TokenKind)
    requires Wf(p)
    ensures var p3 := OpenTheme(OpenComment(OpenVar(p, t), t), t);
            var n := |p.b.log|;
            && p3.varMarker == (if t == Var then Some(n) else p.varMarker)
            && p3.markingVar == (t == Var || p.markingVar)
            && p3.commentMarker == (if t == CommentStart then Some(n) else p.commentMarker)
            && p3.markingComment == (t == CommentStart || p.markingComment)
            && p3.identifierMarker == p.identifierMarker
            && p3.themeMarker == (if t == ThemeVar then Some(n) else p.themeMarker)
            && p3.markingTheme == (t == ThemeVar || p.markingTheme)
            && p3.b.log == (if t == Var || t == CommentStart || t == ThemeVar then Mark(p.b).log else p.b.log)
  {
  }

  /** beforeConsume sets the variable flag only for a variable token and
      points the variable, comment or theme field at the marker it opens. */
  lemma BeforeFields(p: ParserState, g: Tables, t: TokenKind)
    requires Wf(p) && CacheOk(p) && g.Valid() && !p.markingVar
    ensures var r := BeforeConsume(p, g, t);
            var n := |p.b.log|;
            && r.varMarker == (if t == Var then Some(n) else p.varMarker)
            && r.markingVar == (t == Var)
            && r.commentMarker == (if t == CommentStart then Some(n) else p.commentMarker)
            && r.markingComment == (t == CommentStart || p.markingComment)
            && r.identifierMarker == p.identifierMarker
            && r.markingTheme == (t == ThemeVar || (t == StringLit && p.markingTheme))
            && r.themeMarker == (if t == ThemeVar then Some(n) else p.themeMarker)
  {
    BeforeConsumeByToken(p, g, t);
    if t == BlockStart {
      assert SameMarks(p, OpenBlockHead(p, g, t));
    }
  }

  /** beforeConsume opens at most one marker for a variable, comment start or
      theme token, at the cursor, and changes no existing marker. */
  lemma BeforeLog(p: ParserState, g: Tables, t: TokenKind)
    requires Wf(p) && CacheOk(p) && g.Valid()
    ensures var r := BeforeConsume(p, g, t);
            var n := |p.b.log|;
            && (forall k :: 0 <= k < n ==> r.b.log[k] == p.b.log[k])
            && (t == Var || t == CommentStart || t == ThemeVar ==>
                  |r.b.log| == n + 1 && r.b.log[n] == Marker(p.b.pos, p.b.pos, Open))
            && (t != Var && t != CommentStart && t != ThemeVar && t != BlockStart ==> |r.b.log| == n)
  {
    BeforeConsumeByToken(p, g, t);
  }

  /** The first three clauses of afterConsume: the variable is closed (which
      resets the chain) and a string after a theme directive ends it. */
  lemma EarlyFields(p: ParserState, t: TokenKind)
    requires Wf(p) && p.markingVar == (t == Var)
    ensures var p3 := WrapThemePath(CloseThemeDir(CloseVar(p, t), t), t);
            && p3.varMarker == p.varMarker && !p3.markingVar
            && p3.commentMarker == p.commentMarker && p3.markingComment == p.markingComment
            && p3.identifierMarker == (if t == Var then None else p.identifierMarker)
            && p3.markingTheme == (p.markingTheme && t != StringLit)
            && p3.themeMarker == (if p.markingTheme && t == StringLit then None else p.themeMarker)
            && (t == Identifier ==> |p3.b.log| == |p.b.log|)
  {
  }

  /** afterConsume crashes exactly on an identifier with neither a chain link
      nor a variable marker, or on a comment end with no comment marker.
      Otherwise it closes the pending variable (resetting the chain), extends
      the chain on an identifier, closes the comment on a comment end, and
      ends a theme directive on a string. */
  lemma AfterFields(p: ParserState, g: Tables, t: TokenKind)
    requires Wf(p) && p.markingVar == (t == Var)
    ensures var r := AfterConsume(p, g, t);
            var n := |p.b.log|;
            && (r.Failure? <==>
                  (t == Identifier && p.identifierMarker.None? && p.varMarker.None?)
                  || (t == CommentEnd && p.commentMarker.None?))
            && (r.Success? ==>
                  var q := r.value;
                  && q.varMarker == p.varMarker && !q.markingVar
                  && q.commentMarker == p.commentMarker
                  && q.markingComment == (t != CommentEnd && p.markingComment)
                  && q.identifierMarker ==
                       (if t == Var then None else if t == Identifier then Some(n) else p.identifierMarker)
                  && q.markingTheme == (p.markingTheme && t != StringLit)
                  && q.themeMarker == (if p.markingTheme && t == StringLit then None else p.themeMarker))
  {
    var n := |p.b.log|;
    var r := AfterConsume(p, g, t);
    var p3 := WrapThemePath(CloseThemeDir(CloseVar(p, t), t), t);
    EarlyFields(p, t);
    var r4 := ChainIdentifier(p3, t);
    if r4.Failure? {
      assert r.Failure?;
    } else {
      var p4 := r4.value;
      assert p4.identifierMarker == (if t == Identifier then Some(n) else p3.identifierMarker);
      var r5 := CloseComment(p4, t);
      if r5.Failure? {
        assert r.Failure?;
      } else {
        var p6 := CloseBlock(r5.value, g, t);
        assert r == Success(DropBadHead(p6, t));
      }
    }
  }

  // ---------------------------------------------------------------------
  // Field effects of one iteration

  /** An iteration crashes exactly on an identifier with neither a chain
      link nor a variable marker, or on a comment end with no comment marker. */
  lemma StepCrashes(p: ParserState, g: Tables)
    requires Wf(p) && CacheOk(p) && g.Valid() && !Eof(p.b) && !p.markingVar
    ensures var t := p.b.tokens[p.b.pos].kind;
            Step(p, g).Failure? <==>
              (t == Identifier && p.identifierMarker.None? && p.varMarker.None?)
              || (t == CommentEnd && p.commentMarker.None?)
  {
    var t := p.b.tokens[p.b.pos].kind;
    var p1 := BeforeConsume(p, g, t);
    BeforeFields(p, g, t);
    var p2 := p1.(b := Advance(p1.b));
    AfterFields(p2, g, t);
    var r := AfterConsume(p2, g, t);
    assert Step(p, g).Failure? <==> r.Failure?;
  }

  /** One iteration on the variable side: a variable token becomes the
      variable marker and resets the chain, and an identifier's new link
      becomes the chain head. */
  lemma StepMarks(p: ParserState, g: Tables)
    requires Wf(p) && CacheOk(p) && g.Valid() && !Eof(p.b) && !p.markingVar
    ensures var r := Step(p, g);
            var t := p.b.tokens[p.b.pos].kind;
            var n := |p.b.log|;
            r.Success? ==>
              && r.value.varMarker == (if t == Var then Some(n) else p.varMarker)
              && r.value.identifierMarker ==
                   (if t == Var then None else if t == Identifier then Some(n) else p.identifierMarker)
  {
    var t := p.b.tokens[p.b.pos].kind;
    var p1 := BeforeConsume(p, g, t);
    BeforeFields(p, g, t);
    AfterFields(p1.(b := Advance(p1.b)), g, t);
    StepUnfolds(p, g);
  }

  /** One iteration on the comment side: a comment start becomes the comment
      marker, and the comment flag follows starts and ends. */
  lemma StepComment(p: ParserState, g: Tables)
    requires Wf(p) && CacheOk(p) && g.Valid() && !Eof(p.b) && !p.markingVar
    ensures var r := Step(p, g);
            var t := p.b.tokens[p.b.pos].kind;
            var n := |p.b.log|;
            r.Success? ==>
              && r.value.commentMarker == (if t == CommentStart then Some(n) else p.commentMarker)
              && r.value.markingComment ==
                   (if t == CommentStart then true else if t == CommentEnd then false else p.markingComment)
  {
    var t := p.b.tokens[p.b.pos].kind;
    var p1 := BeforeConsume(p, g, t);
    BeforeFields(p, g, t);
    AfterFields(p1.(b := Advance(p1.b)), g, t);
    StepUnfolds(p, g);
  }

  /** A theme token leaves a pending theme directive behind it; a string
      right after one ends it; any other token lets it lapse. */
  lemma StepTheme(p: ParserState, g: Tables)
    requires Wf(p) && CacheOk(p) && g.Valid() && !Eof(p.b) && !p.markingVar
    ensures var r := Step(p, g);
            var t := p.b.tokens[p.b.pos].kind;
            var n := |p.b.log|;
            r.Success? ==>
              && r.value.markingTheme == (t == ThemeVar)
              && r.value.themeMarker ==
                   (if t == ThemeVar then Some(n)
                    else if t == StringLit && p.markingTheme then None
                    else p.themeMarker)
  {
    var t := p.b.tokens[p.b.pos].kind;
    var p1 := BeforeConsume(p, g, t);
    BeforeFields(p, g, t);
    AfterFields(p1.(b := Advance(p1.b)), g, t);
    StepUnfolds(p, g);
  }

  // ---------------------------------------------------------------------
  // The markers one iteration produces, token kind by token kind

  /** The frame of an iteration: the lets of `Step`, exposed. */
  lemma StepUnfolds(p: ParserState, g: Tables)
    requires Wf(p) && CacheOk(p) && g.Valid() && !Eof(p.b)
    ensures var t := p.b.tokens[p.b.pos].kind;
            var p1 := BeforeConsume(p, g, t);
            var p2 := p1.(b := Advance(p1.b));
            var r := AfterConsume(p2, g, t);
            && Step(p, g).Success? == r.Success?
            && (r.Success? ==> Step(p, g).value == r.value.(nextToken := None, nextTokenText := None))
  {
  }

  lemma AfterVar(p: ParserState, g: Tables)
    requires Marked(p) && p.markingVar
    ensures var r := AfterConsume(p, g, Var);
            var v := p.varMarker.value;
            && r.Success? && |r.value.b.log| == |p.b.log|
            && r.value.b.log[v] == Marker(p.b.log[v].start, p.b.pos, Done(NamedVar))
  {
    var p1 := CloseVar(p, Var);
    assert AfterConsume(p, g, Var) == Success(DropBadHead(p1, Var));
  }

  lemma AfterIdentifier(p: ParserState, g: Tables)
    requires Wf(p) && !p.markingVar && (p.identifierMarker.Some? || p.varMarker.Some?)
    ensures var r := AfterConsume(p, g, Identifier);
            var inner := if p.identifierMarker.Some? then p.identifierMarker.value else p.varMarker.value;
            var n := |p.b.log|;
            && r.Success? && |r.value.b.log| == n + 1
            && r.value.b.log[n] == Marker(p.b.log[inner].start, p.b.pos, Done(FieldReference))
  {
    var r4 := ChainIdentifier(p, Identifier);
    assert AfterConsume(p, g, Identifier) == Success(DropBadHead(r4.value, Identifier));
  }

  lemma AfterThemeVar(p: ParserState, g: Tables)
    requires Marked(p) && !p.markingVar && p.markingTheme
    ensures var r := AfterConsume(p, g, ThemeVar);
            var m := p.themeMarker.value;
            && r.Success? && |r.value.b.log| == |p.b.log|
            && r.value.b.log[m] == Marker(p.b.log[m].start, p.b.pos, Done(ThemeDir))
  {
    var p2 := CloseThemeDir(p, ThemeVar);
    assert AfterConsume(p, g, ThemeVar) == Success(DropBadHead(p2, ThemeVar));
  }

  lemma AfterString(p: ParserState, g: Tables)
    requires Wf(p) && !p.markingVar
    ensures var r := AfterConsume(p, g, StringLit);
            var n := |p.b.log|;
            && r.Success?
            && (p.markingTheme ==>
                  && |r.value.b.log| == n + 1
                  && r.value.b.log[n] ==
                     Marker(p.b.log[p.themeMarker.value].start, p.b.pos, Done(ThemeFilePath)))
            && (!p.markingTheme ==> |r.value.b.log| == n)
  {
    var p3 := WrapThemePath(p, StringLit);
    assert AfterConsume(p, g, StringLit) == Success(DropBadHead(p3, StringLit));
  }

  lemma AfterCommentStart(p: ParserState, g: Tables)
    requires Marked(p) && !p.markingVar && p.commentMarker.Some?
    ensures var r := AfterConsume(p, g, CommentStart);
            var c := p.commentMarker.value;
            && r.Success? && |r.value.b.log| == |p.b.log|
            && r.value.b.log[c] == p.b.log[c]
  {
    assert AfterConsume(p, g, CommentStart) == Success(DropBadHead(p, CommentStart));
  }

  lemma AfterCommentEnd(p: ParserState, g: Tables)
    requires Marked(p) && !p.markingVar && p.commentMarker.Some?
    ensures var r := AfterConsume(p, g, CommentEnd);
            var c := p.commentMarker.value;
            && r.Success? && |r.value.b.log| == |p.b.log|
            && r.value.b.log[c] == Marker(p.b.log[c].start, p.b.pos, Done(CommentStatement))
  {
    var r5 := CloseComment(p, CommentEnd);
    assert AfterConsume(p, g, CommentEnd) == Success(DropBadHead(r5.value, CommentEnd));
  }

  /** A variable token becomes a named-variable node covering exactly itself. */
  lemma VarStep(p: ParserState, g: Tables)
    requires Inv(p) && Boundary(p) && g.Valid() && !Eof(p.b) && p.b.tokens[p.b.pos].kind == Var
    ensures var r := Step(p, g);
            var n := |p.b.log|;
            var i := p.b.pos;
            && r.Success?
            && r.value.varMarker == Some(n) && r.value.identifierMarker == None
            && |r.value.b.log| == n + 1
            && r.value.b.log[n] == Marker(i, i + 1, Done(NamedVar))
  {
    var t := Var;
    var p1 := BeforeConsume(p, g, t);
    BeforeFields(p, g, t);
    BeforeLog(p, g, t);
    var p2 := p1.(b := Advance(p1.b));
    ConsumeInv(p, g, t);
    AfterVar(p2, g);
    StepUnfolds(p, g);
    StepMarks(p, g);
    StepComment(p, g);
  }

  /** An identifier wraps the current chain link (the variable marker for the
      first one) in a new field-reference node that starts where the link
      starts and ends after the identifier; the new node becomes the link.
      It crashes exactly when there is neither a link nor a variable marker. */
  lemma IdentifierStep(p: ParserState, g: Tables)
    requires Inv(p) && Boundary(p) && g.Valid() && !Eof(p.b) && p.b.tokens[p.b.pos].kind == Identifier
    ensures var r := Step(p, g);
            var n := |p.b.log|;
            var i := p.b.pos;
            && (r.Success? <==> p.identifierMarker.Some? || p.varMarker.Some?)
            && (r.Success? ==>
                  var inner := if p.identifierMarker.Some? then p.identifierMarker.value else p.varMarker.value;
                  && r.value.identifierMarker == Some(n)
                  && |r.value.b.log| == n + 1
                  && r.value.b.log[n] == Marker(p.b.log[inner].start, i + 1, Done(FieldReference)))
  {
    var t := Identifier;
    var p1 := BeforeConsume(p, g, t);
    BeforeFields(p, g, t);
    BeforeLog(p, g, t);
    var p2 := p1.(b := Advance(p1.b));
    StepCrashes(p, g);
    if p.identifierMarker.Some? || p.varMarker.Some? {
      AfterIdentifier(p2, g);
      StepUnfolds(p, g);
      StepMarks(p, g);
      }
  }

  /** A theme token becomes a theme-directive node covering exactly itself,
      and stays pending for the token after it. */
  lemma ThemeVarStep(p: ParserState, g: Tables)
    requires Inv(p) && Boundary(p) && g.Valid() && !Eof(p.b) && p.b.tokens[p.b.pos].kind == ThemeVar
    ensures var r := Step(p, g);
            var n := |p.b.log|;
            var i := p.b.pos;
            && r.Success?
            && r.value.markingTheme && r.value.themeMarker == Some(n)
            && |r.value.b.log| == n + 1
            && r.value.b.log[n] == Marker(i, i + 1, Done(ThemeDir))
  {
    var t := ThemeVar;
    var p1 := BeforeConsume(p, g, t);
    BeforeFields(p, g, t);
    BeforeLog(p, g, t);
    var p2 := p1.(b := Advance(p1.b));
    ConsumeInv(p, g, t);
    AfterThemeVar(p2, g);
    StepUnfolds(p, g);
    StepTheme(p, g);
  }

  /** A string right after a pending theme directive wraps it in a file-path
      node that ends after the string; any other string adds no node. */
  lemma StringStep(p: ParserState, g: Tables)
    requires Inv(p) && Boundary(p) && g.Valid() && !Eof(p.b) && p.b.tokens[p.b.pos].kind == StringLit
    ensures var r := Step(p, g);
            var n := |p.b.log|;
            var i := p.b.pos;
            && r.Success? && !r.value.markingTheme
            && (p.markingTheme ==>
                  && |r.value.b.log| == n + 1
                  && r.value.b.log[n] ==
                     Marker(p.b.log[p.themeMarker.value].start, i + 1, Done(ThemeFilePath)))
            && (!p.markingTheme ==> |r.value.b.log| == n)
  {
    var t := StringLit;
    var p1 := BeforeConsume(p, g, t);
    BeforeFields(p, g, t);
    BeforeLog(p, g, t);
    var p2 := p1.(b := Advance(p1.b));
    AfterString(p2, g);
    StepUnfolds(p, g);
    StepTheme(p, g);
  }

  /** A comment start opens the comment marker at itself and sets the flag;
      a comment marker that was still open is left behind, open. */
  lemma CommentStartStep(p: ParserState, g: Tables)
    requires Inv(p) && Boundary(p) && g.Valid() && !Eof(p.b) && p.b.tokens[p.b.pos].kind == CommentStart
    ensures var r := Step(p, g);
            var n := |p.b.log|;
            var i := p.b.pos;
            && r.Success?
            && r.value.commentMarker == Some(n) && r.value.markingComment
            && |r.value.b.log| == n + 1
            && r.value.b.log[n] == Marker(i, i, Open)
            && (p.commentMarker.Some? ==>
                  r.value.b.log[p.commentMarker.value] == p.b.log[p.commentMarker.value])
  {
    var t := CommentStart;
    var p1 := BeforeConsume(p, g, t);
    BeforeFields(p, g, t);
    BeforeLog(p, g, t);
    var p2 := p1.(b := Advance(p1.b));
    ConsumeInv(p, g, t);
    AfterCommentStart(p2, g);
    StepUnfolds(p, g);
    StepMarks(p, g);
    StepComment(p, g);
    if p.commentMarker.Some? {
      var c := p.commentMarker.value;
      assert DropBadHead(p2, t).b.log[c] == p2.b.log[c];
    }
  }

  /** A comment end completes the current comment marker as a comment node
      ending after itself and clears the flag; with no comment marker the
      parse crashes. */
  lemma CommentEndStep(p: ParserState, g: Tables)
    requires Inv(p) && Boundary(p) && g.Valid() && !Eof(p.b) && p.b.tokens[p.b.pos].kind == CommentEnd
    ensures var r := Step(p, g);
            var i := p.b.pos;
            && (r.Success? <==> p.commentMarker.Some?)
            && (r.Success? ==>
                  var c := p.commentMarker.value;
                  && !r.value.markingComment
                  && |r.value.b.log| == |p.b.log|
                  && r.value.b.log[c] == Marker(p.b.log[c].start, i + 1, Done(CommentStatement)))
  {
    var t := CommentEnd;
    var p1 := BeforeConsume(p, g, t);
    BeforeFields(p, g, t);
    BeforeLog(p, g, t);
    var p2 := p1.(b := Advance(p1.b));
    StepCrashes(p, g);
    if p.commentMarker.Some? {
      ConsumeInv(p, g, t);
      AfterCommentEnd(p2, g);
      StepUnfolds(p, g);
      StepMarks(p, g);
      StepComment(p, g);
    }
  }

  // ---------------------------------------------------------------------
  // What the fields remember about the tokens consumed so far

  /** The variable marker is the one opened by the last variable token
      consumed, null when there was none. */
  predicate RemembersVar(p: ParserState)
    requires Wf(p)
  {
    var lv := LastIndex(p.b.tokens, Var, p.b.pos);
    && (p.varMarker.Some? <==> lv.Some?)
    && (p.varMarker.Some? ==> p.b.log[p.varMarker.value].start == lv.value)
  }

  /** The comment marker is the one opened by the last comment start
      consumed, null when there was none; the comment flag is set exactly
      when the last comment start came after the last comment end. */
  predicate RemembersComment(p: ParserState)
    requires Wf(p)
  {
    var lc := LastIndex(p.b.tokens, CommentStart, p.b.pos);
    var le := LastIndex(p.b.tokens, CommentEnd, p.b.pos);
    && (p.commentMarker.Some? <==> lc.Some?)
    && (p.commentMarker.Some? ==> p.b.log[p.commentMarker.value].start == lc.value)
    && (p.markingComment <==> lc.Some? && (le.None? || le.value < lc.value))
  }

  predicate Remembers(p: ParserState)
    requires Wf(p)
  {
    RemembersVar(p) && RemembersComment(p)
  }

  /** Some field-reference node spans the tokens from `start` up to `end`. */
  predicate LinkAt(log: seq<Marker>, start: nat, end: nat) {
    exists k :: 0 <= k < |log| && log[k] == Marker(start, end, Done(FieldReference))
  }

  lemma LinkKept(a: seq<Marker>, b: seq<Marker>, start: nat, end: nat)
    requires KeepsRefs(a, b) && LinkAt(a, start, end)
    ensures LinkAt(b, start, end)
  {
    var k :| 0 <= k < |a| && a[k] == Marker(start, end, Done(FieldReference));
    assert IsRef(a[k]);
  }

  /** The chain head is set exactly when an identifier came after the last
      variable token, and it is the field-reference node from that variable
      up to and including the last identifier. */
  predicate ChainHead(p: ParserState)
    requires Wf(p)
  {
    var lv := LastIndex(p.b.tokens, Var, p.b.pos);
    var li := LastIndex(p.b.tokens, Identifier, p.b.pos);
    && (p.identifierMarker.Some? <==> lv.Some? && li.Some? && lv.value < li.value)
    && (p.identifierMarker.Some? ==>
          p.b.log[p.identifierMarker.value] == Marker(lv.value, li.value + 1, Done(FieldReference)))
  }

  /** Every identifier consumed after some variable token has a
      field-reference node from the last variable before it up to and
      including itself: the identifiers after one variable give nested
      nodes with a common start, one per identifier. */
  predicate ChainLinks(p: ParserState) {
    var ts := p.b.tokens;
    forall j :: 0 <= j < p.b.pos <= |ts| && ts[j].kind == Identifier && LastIndex(ts, Var, j).Some? ==>
      LinkAt(p.b.log, LastIndex(ts, Var, j).value, j + 1)
  }

  predicate Chained(p: ParserState)
    requires Wf(p)
  {
    ChainHead(p) && ChainLinks(p)
  }

  /** A theme directive is pending exactly when the last token consumed was a
      theme token, and its node covers exactly that token. */
  predicate ThemePending(p: ParserState)
    requires Wf(p)
  {
    var ts := p.b.tokens;
    var i := p.b.pos;
    && (p.markingTheme <==> 0 < i && ts[i - 1].kind == ThemeVar)
    && (p.markingTheme ==> p.b.log[p.themeMarker.value] == Marker(i - 1, i, Done(ThemeDir)))
  }

  predicate Recorded(p: ParserState) {
    Wf(p) && Remembers(p) && Chained(p) && ThemePending(p)
  }

  lemma InitialRecorded(tokens: seq<Token>)
    ensures Recorded(Initial(StartBuilder(tokens)))
  {
  }

  // ---------------------------------------------------------------------
  // One iteration, summarised

  /** One token consumed; marker starts and field-reference nodes kept. */
  predicate Advanced(p: ParserState, q: ParserState) {
    && q.b.tokens == p.b.tokens && q.b.pos == p.b.pos + 1
    && Extends(p.b.log, q.b.log) && KeepsRefs(p.b.log, q.b.log)
  }

  /** The field effects of one iteration on a token of kind `t`. */
  predicate FieldsAdvanced(p: ParserState, q: ParserState, t: TokenKind) {
    var n := |p.b.log|;
    && q.varMarker == (if t == Var then Some(n) else p.varMarker)
    && q.commentMarker == (if t == CommentStart then Some(n) else p.commentMarker)
    && q.markingComment ==
         (if t == CommentStart then true else if t == CommentEnd then false else p.markingComment)
    && q.identifierMarker ==
         (if t == Var then None else if t == Identifier then Some(n) else p.identifierMarker)
    && q.markingTheme == (t == ThemeVar)
    && q.themeMarker ==
         (if t == ThemeVar then Some(n) else if t == StringLit && p.markingTheme then None else p.themeMarker)
  }

  /** The node one iteration opens or produces for a token of kind `t`. */
  predicate MarkersAdvanced(p: ParserState, q: ParserState, t: TokenKind)
    requires Wf(p)
  {
    var n := |p.b.log|;
    var i := p.b.pos;
    && (t == Var ==> n < |q.b.log| && q.b.log[n] == Marker(i, i + 1, Done(NamedVar)))
    && (t == Identifier && p.identifierMarker.Some? ==>
          n < |q.b.log| &&
          q.b.log[n] == Marker(p.b.log[p.identifierMarker.value].start, i + 1, Done(FieldReference)))
    && (t == Identifier && p.identifierMarker.None? && p.varMarker.Some? ==>
          n < |q.b.log| &&
          q.b.log[n] == Marker(p.b.log[p.varMarker.value].start, i + 1, Done(FieldReference)))
    && (t == ThemeVar ==> n < |q.b.log| && q.b.log[n] == Marker(i, i + 1, Done(ThemeDir)))
    && (t == CommentStart ==> n < |q.b.log| && q.b.log[n].start == i)
  }

  lemma StepAdvances(p: ParserState, g: Tables)
    requires Inv(p) && Boundary(p) && RefSafe(p) && g.Valid() && !Eof(p.b)
    ensures var r := Step(p, g);
            r.Success? ==> Advanced(p, r.value) && FieldsAdvanced(p, r.value, p.b.tokens[p.b.pos].kind)
  {
    StepRefs(p, g);
    StepMarks(p, g);
    StepComment(p, g);
    StepTheme(p, g);
  }

  lemma StepProduces(p: ParserState, g: Tables)
    requires Inv(p) && Boundary(p) && g.Valid() && !Eof(p.b)
    ensures var r := Step(p, g);
            r.Success? ==> MarkersAdvanced(p, r.value, p.b.tokens[p.b.pos].kind)
  {
    var t := p.b.tokens[p.b.pos].kind;
    if t == Var {
      VarStep(p, g);
    } else if t == Identifier {
      IdentifierStep(p, g);
    } else if t == ThemeVar {
      ThemeVarStep(p, g);
    } else if t == CommentStart {
      CommentStartStep(p, g);
    }
  }

  lemma RemembersVarFrom(p: ParserState, q: ParserState)
    requires Wf(p) && Wf(q) && !Eof(p.b) && RemembersVar(p) && Advanced(p, q)
    requires FieldsAdvanced(p, q, p.b.tokens[p.b.pos].kind) && MarkersAdvanced(p, q, p.b.tokens[p.b.pos].kind)
    ensures RemembersVar(q)
  {
    var ts := p.b.tokens;
    var i := p.b.pos;
    assert LastIndex(ts, Var, i + 1) == if ts[i].kind == Var then Some(i) else LastIndex(ts, Var, i);
  }

  lemma RemembersCommentFrom(p: ParserState, q: ParserState)
    requires Wf(p) && Wf(q) && !Eof(p.b) && RemembersComment(p) && Advanced(p, q)
    requires FieldsAdvanced(p, q, p.b.tokens[p.b.pos].kind) && MarkersAdvanced(p, q, p.b.tokens[p.b.pos].kind)
    requires p.b.tokens[p.b.pos].kind == CommentEnd ==> p.commentMarker.Some?
    ensures RemembersComment(q)
  {
    var ts := p.b.tokens;
    var i := p.b.pos;
    assert LastIndex(ts, CommentStart, i + 1) ==
      if ts[i].kind == CommentStart then Some(i) else LastIndex(ts, CommentStart, i);
    assert LastIndex(ts, CommentEnd, i + 1) ==
      if ts[i].kind == CommentEnd then Some(i) else LastIndex(ts, CommentEnd, i);
  }

  lemma ChainHeadFrom(p: ParserState, q: ParserState)
    requires Wf(p) && Wf(q) && !Eof(p.b) && RemembersVar(p) && ChainHead(p) && Advanced(p, q)
    requires FieldsAdvanced(p, q, p.b.tokens[p.b.pos].kind) && MarkersAdvanced(p, q, p.b.tokens[p.b.pos].kind)
    requires p.b.tokens[p.b.pos].kind == Identifier ==> p.identifierMarker.Some? || p.varMarker.Some?
    ensures ChainHead(q)
  {
    var ts := p.b.tokens;
    var i := p.b.pos;
    var t := ts[i].kind;
    assert LastIndex(ts, Var, i + 1) == if t == Var then Some(i) else LastIndex(ts, Var, i);
    assert LastIndex(ts, Identifier, i + 1) == if t == Identifier then Some(i) else LastIndex(ts, Identifier, i);
    if t != Identifier && t != Var && p.identifierMarker.Some? {
      assert IsRef(p.b.log[p.identifierMarker.value]);
    }
  }

  lemma ChainLinksFrom(p: ParserState, q: ParserState)
    requires Wf(p) && Wf(q) && !Eof(p.b) && RemembersVar(p) && ChainHead(p) && ChainLinks(p) && Advanced(p, q)
    requires MarkersAdvanced(p, q, p.b.tokens[p.b.pos].kind)
    requires p.b.tokens[p.b.pos].kind == Identifier ==> p.identifierMarker.Some? || p.varMarker.Some?
    ensures ChainLinks(q)
  {
    var ts := p.b.tokens;
    var i := p.b.pos;
    forall j | 0 <= j < i && ts[j].kind == Identifier && LastIndex(ts, Var, j).Some?
      ensures LinkAt(q.b.log, LastIndex(ts, Var, j).value, j + 1)
    {
      LinkKept(p.b.log, q.b.log, LastIndex(ts, Var, j).value, j + 1);
    }
    if ts[i].kind == Identifier && LastIndex(ts, Var, i).Some? {
      var n := |p.b.log|;
      assert q.b.log[n] == Marker(LastIndex(ts, Var, i).value, i + 1, Done(FieldReference));
    }
  }

  lemma ThemePendingFrom(p: ParserState, q: ParserState)
    requires Wf(p) && Wf(q) && !Eof(p.b) && Advanced(p, q)
    requires FieldsAdvanced(p, q, p.b.tokens[p.b.pos].kind) && MarkersAdvanced(p, q, p.b.tokens[p.b.pos].kind)
    ensures ThemePending(q)
  {
  }

  lemma RecordedStep(p: ParserState, g: Tables)
    requires Inv(p) && Boundary(p) && RefSafe(p) && g.Valid() && !Eof(p.b) && Recorded(p)
    ensures Step(p, g).Success? ==> Recorded(Step(p, g).value)
  {
    var r := Step(p, g);
    StepAdvances(p, g);
    StepProduces(p, g);
    StepCrashes(p, g);
    if r.Success? {
      var q := r.value;
      RemembersVarFrom(p, q);
      RemembersCommentFrom(p, q);
      ChainHeadFrom(p, q);
      ChainLinksFrom(p, q);
      ThemePendingFrom(p, q);
    }
  }

  // ---------------------------------------------------------------------
  // When a parse crashes

  /** Token `j` dereferences a null marker: an identifier with no variable
      token before it, or a comment end with no comment start before it. */
  predicate CrashAt(ts: seq<Token>, j: nat)
    requires j < |ts|
  {
    || (ts[j].kind == Identifier && LastIndex(ts, Var, j).None?)
    || (ts[j].kind == CommentEnd && LastIndex(ts, CommentStart, j).None?)
  }

  /** An iteration crashes exactly on such a token. */
  lemma StepCrashAt(p: ParserState, g: Tables)
    requires Inv(p) && Boundary(p) && g.Valid() && !Eof(p.b) && Recorded(p)
    ensures Step(p, g).Failure? <==> CrashAt(p.b.tokens, p.b.pos)
  {
    StepCrashes(p, g);
  }

  /** Some token from index `i` on is a crashing one. */
  predicate CrashesFrom(ts: seq<Token>, i: nat) {
    exists j :: i <= j < |ts| && CrashAt(ts, j)
  }

  lemma CrashesFromUnfolds(ts: seq<Token>, i: nat)
    requires i < |ts|
    ensures CrashesFrom(ts, i) <==> CrashAt(ts, i) || CrashesFrom(ts, i + 1)
  {
    if CrashesFrom(ts, i) && !CrashAt(ts, i) {
      var j :| i <= j < |ts| && CrashAt(ts, j);
      assert i + 1 <= j;
    }
  }

  /** Everything the loop keeps between iterations. */
  predicate Good(p: ParserState) {
    Inv(p) && Boundary(p) && RefSafe(p) && Recorded(p)
  }

  /** An iteration from a good state crashes exactly on a crashing token and
      otherwise ends in a good state. */
  lemma StepGood(p: ParserState, g: Tables)
    requires Good(p) && g.Valid() && !Eof(p.b)
    ensures Step(p, g).Failure? <==> CrashAt(p.b.tokens, p.b.pos)
    ensures Step(p, g).Success? ==> Good(Step(p, g).value)
  {
    StepCrashAt(p, g);
    StepInv(p, g);
    StepRefs(p, g);
    RecordedStep(p, g);
  }

  /** The loop crashes exactly when some token still to be consumed is a
      crashing one; otherwise it ends in a good state. */
  lemma {:induction false} RunGood(p: ParserState, g: Tables)
    requires Good(p) && g.Valid()
    ensures Run(p, g).Failure? <==> CrashesFrom(p.b.tokens, p.b.pos)
    ensures Run(p, g).Success? ==> Good(Run(p, g).value)
    decreases |p.b.tokens| - p.b.pos
  {
    if !Eof(p.b) {
      StepGood(p, g);
      CrashesFromUnfolds(p.b.tokens, p.b.pos);
      var q := Step(p, g);
      if q.Success? {
        assert Run(p, g) == Run(q.value, g);
        RunGood(q.value, g);
      }
    }
  }

  lemma InitialGood(tokens: seq<Token>)
    ensures Good(Initial(StartBuilder(tokens)))
  {
    InitialInv(tokens);
    InitialRefSafe(tokens);
    InitialRecorded(tokens);
  }

  /** A whole parse crashes exactly when the input has an identifier with no
      variable token before it or a comment end with no comment start before
      it. */
  lemma ParseCrashes(g: Tables, root: NodeType, tokens: seq<Token>)
    requires g.Valid()
    ensures Parse(g, root, tokens).Failure? <==> CrashesFrom(tokens, 0)
  {
    var p := Initial(StartBuilder(tokens));
    InitialGood(tokens);
    RunGood(p, g);
  }

  /** After a parse of crash-free input, every identifier has its
      field-reference node from the last variable token before it up to and
      including itself, however the rest of the input went. */
  lemma ParseTreeLinks(g: Tables, tokens: seq<Token>)
    requires g.Valid()
    ensures var r := ParseTree(Initial(StartBuilder(tokens)), g);
            r.Success? ==>
              forall j :: 0 <= j < |tokens| && tokens[j].kind == Identifier ==>
                && LastIndex(tokens, Var, j).Some?
                && LinkAt(r.value.b.log, LastIndex(tokens, Var, j).value, j + 1)
  {
    var p := Initial(StartBuilder(tokens));
    InitialGood(tokens);
    RunGood(p, g);
    var q := Run(p, g);
    if q.Success? {
      var e := EofCleanup(q.value);
      EofCleanupRefs(q.value);
      assert ParseTree(p, g) == Success(e);
      forall j | 0 <= j < |tokens| && tokens[j].kind == Identifier
        ensures LastIndex(tokens, Var, j).Some?
        ensures LinkAt(e.b.log, LastIndex(tokens, Var, j).value, j + 1)
      {
        assert !CrashAt(tokens, j) by {
          assert !CrashesFrom(tokens, 0);
        }
        LinkKept(q.value.b.log, e.b.log, LastIndex(tokens, Var, j).value, j + 1);
      }
    }
  }

  /** A string produces a theme file-path node exactly when the token right
      before it is a theme token; the node then covers both tokens. */
  lemma ThemePathPairing(p: ParserState, g: Tables)
    requires Inv(p) && Boundary(p) && g.Valid() && !Eof(p.b) && Recorded(p)
    requires p.b.tokens[p.b.pos].kind == StringLit
    ensures var r := Step(p, g);
            var n := |p.b.log|;
            var i := p.b.pos;
            var afterTheme := 0 < i && p.b.tokens[i - 1].kind == ThemeVar;
            && r.Success?
            && (afterTheme ==>
                  |r.value.b.log| == n + 1 && r.value.b.log[n] == Marker(i - 1, i + 1, Done(ThemeFilePath)))
            && (!afterTheme ==> |r.value.b.log| == n)
  {
    StringStep(p, g);
  }

  // ---------------------------------------------------------------------
  // Exactly one link per identifier

  /** Marker `m` is the link of identifier `j`: a field-reference node from
      the last variable token before `j` up to and including `j`. */
  predicate LinkOf(ts: seq<Token>, j: nat, m: Marker) {
    && j < |ts| && ts[j].kind == Identifier && LastIndex(ts, Var, j).Some?
    && m == Marker(LastIndex(ts, Var, j).value, j + 1, Done(FieldReference))
  }

  /** Every field-reference node is the link of an identifier consumed so far. */
  predicate LinksExact(p: ParserState) {
    forall k :: 0 <= k < |p.b.log| && IsRef(p.b.log[k]) ==>
      exists j :: 0 <= j < p.b.pos && LinkOf(p.b.tokens, j, p.b.log[k])
  }

  /** No two field-reference nodes end at the same token. */
  predicate EndsDistinct(log: seq<Marker>) {
    forall k1, k2 :: 0 <= k1 < k2 < |log| && IsRef(log[k1]) && IsRef(log[k2]) ==> log[k1].end != log[k2].end
  }

  predicate Exact(p: ParserState) {
    RefFreeHead(p) && LinksExact(p) && EndsDistinct(p.b.log)
  }

  lemma InitialExact(tokens: seq<Token>)
    ensures Exact(Initial(StartBuilder(tokens)))
  {
  }

  lemma LinksExactFrom(p: ParserState, q: ParserState)
    requires Wf(p) && Wf(q) && !Eof(p.b) && RemembersVar(p) && ChainHead(p) && LinksExact(p)
    requires Advanced(p, q) && MarkersAdvanced(p, q, p.b.tokens[p.b.pos].kind)
    requires RefsFrom(p.b.log, q.b.log,
                      if p.b.tokens[p.b.pos].kind == Identifier then Some(|p.b.log|) else None)
    requires p.b.tokens[p.b.pos].kind == Identifier ==> p.identifierMarker.Some? || p.varMarker.Some?
    ensures LinksExact(q)
  {
    var ts := p.b.tokens;
    var i := p.b.pos;
    var n := |p.b.log|;
    forall k | 0 <= k < |q.b.log| && IsRef(q.b.log[k])
      ensures exists j :: 0 <= j < q.b.pos && LinkOf(ts, j, q.b.log[k])
    {
      if k < n && IsRef(p.b.log[k]) {
        var j :| 0 <= j < p.b.pos && LinkOf(ts, j, p.b.log[k]);
        assert q.b.log[k] == p.b.log[k];
        assert LinkOf(ts, j, q.b.log[k]);
      } else {
        assert k == n && ts[i].kind == Identifier;
        assert q.b.log[n] == Marker(LastIndex(ts, Var, i).value, i + 1, Done(FieldReference));
        assert LinkOf(ts, i, q.b.log[k]);
      }
    }
  }

  /** The node an identifier makes ends after every earlier field-reference
      node, so ends stay distinct. */
  lemma EndsDistinctFrom(p: ParserState, q: ParserState)
    requires Wf(p) && !Eof(p.b) && LinksExact(p) && EndsDistinct(p.b.log)
    requires Advanced(p, q) && MarkersAdvanced(p, q, p.b.tokens[p.b.pos].kind)
    requires RefsFrom(p.b.log, q.b.log,
                      if p.b.tokens[p.b.pos].kind == Identifier then Some(|p.b.log|) else None)
    requires p.b.tokens[p.b.pos].kind == Identifier ==> p.identifierMarker.Some? || p.varMarker.Some?
    ensures EndsDistinct(q.b.log)
  {
    var n := |p.b.log|;
    forall k1, k2 | 0 <= k1 < k2 < |q.b.log| && IsRef(q.b.log[k1]) && IsRef(q.b.log[k2])
      ensures q.b.log[k1].end != q.b.log[k2].end
    {
      assert k1 < n && IsRef(p.b.log[k1]) && q.b.log[k1] == p.b.log[k1];
      var j :| 0 <= j < p.b.pos && LinkOf(p.b.tokens, j, p.b.log[k1]);
      if k2 < n && IsRef(p.b.log[k2]) {
        assert q.b.log[k2] == p.b.log[k2];
      } else {
        assert k2 == n && q.b.log[n].end == p.b.pos + 1;
      }
    }
  }

  /** An iteration from a good state makes no field-reference node but the
      link of the identifier it consumes. */
  lemma StepExact(p: ParserState, g: Tables)
    requires Good(p) && Exact(p) && g.Valid() && RefFreeGrammar(g) && !Eof(p.b)
    ensures Step(p, g).Success? ==> Exact(Step(p, g).value)
  {
    var r := Step(p, g);
    StepAdvances(p, g);
    StepProduces(p, g);
    StepCrashes(p, g);
    StepMakesRef(p, g);
    if r.Success? {
      LinksExactFrom(p, r.value);
      EndsDistinctFrom(p, r.value);
    }
  }

  lemma {:induction false} RunExact(p: ParserState, g: Tables)
    requires Good(p) && Exact(p) && g.Valid() && RefFreeGrammar(g)
    ensures Run(p, g).Success? ==> Exact(Run(p, g).value)
    decreases |p.b.tokens| - p.b.pos
  {
    if !Eof(p.b) {
      StepGood(p, g);
      StepExact(p, g);
      var q := Step(p, g);
      if q.Success? {
        assert Run(p, g) == Run(q.value, g);
        RunExact(q.value, g);
      }
    }
  }

  /** The cleanup keeps every link and makes no other field-reference node. */
  lemma CleanupExact(p: ParserState)
    requires Marked(p) && LinksExact(p)
    ensures LinksExact(EofCleanup(p))
  {
    var e := EofCleanup(p);
    EofCleanupRefs(p);
    EofCleanupMakesNoRefs(p);
    forall k | 0 <= k < |e.b.log| && IsRef(e.b.log[k])
      ensures exists j :: 0 <= j < e.b.pos && LinkOf(e.b.tokens, j, e.b.log[k])
    {
      assert k < |p.b.log| && IsRef(p.b.log[k]);
      var j :| 0 <= j < p.b.pos && LinkOf(p.b.tokens, j, p.b.log[k]);
      assert LinkOf(e.b.tokens, j, e.b.log[k]);
    }
  }

  /** The cleanup makes no field-reference node, so ends stay distinct. */
  lemma CleanupDistinct(p: ParserState)
    requires Marked(p) && EndsDistinct(p.b.log)
    ensures EndsDistinct(EofCleanup(p).b.log)
  {
    var e := EofCleanup(p);
    EofCleanupRefs(p);
    EofCleanupMakesNoRefs(p);
    forall k1, k2 | 0 <= k1 < k2 < |e.b.log| && IsRef(e.b.log[k1]) && IsRef(e.b.log[k2])
      ensures e.b.log[k1].end != e.b.log[k2].end
    {
      assert IsRef(p.b.log[k1]) && IsRef(p.b.log[k2]);
    }
  }

  /** In a state whose field-reference nodes are all links, a node from
      `s` to `e` means token `e - 1` is an identifier whose last variable
      token before it is token `s`. */
  lemma LinksAreChains(p: ParserState)
    requires LinksExact(p) && p.b.pos <= |p.b.tokens|
    ensures forall s: nat, e: nat :: LinkAt(p.b.log, s, e) ==>
              && 0 < e <= |p.b.tokens| && p.b.tokens[e - 1].kind == Identifier
              && LastIndex(p.b.tokens, Var, e - 1) == Some(s)
  {
    forall s: nat, e: nat | LinkAt(p.b.log, s, e)
      ensures && 0 < e <= |p.b.tokens| && p.b.tokens[e - 1].kind == Identifier
              && LastIndex(p.b.tokens, Var, e - 1) == Some(s)
    {
      var k :| 0 <= k < |p.b.log| && p.b.log[k] == Marker(s, e, Done(FieldReference));
      assert IsRef(p.b.log[k]);
      var j :| 0 <= j < p.b.pos && LinkOf(p.b.tokens, j, p.b.log[k]);
    }
  }

  /** After a parse of crash-free input the field-reference nodes are
      exactly the identifiers' links: a node spans the tokens from `s` up to
      `e` if and only if token `e - 1` is an identifier whose last variable
      token before it is token `s`, and no two such nodes end at the same
      token. So the nodes that start at a variable are nested one inside the
      next, and there are as many of them as identifiers follow that variable
      before the next one. */
  lemma ParseTreeChain(g: Tables, tokens: seq<Token>)
    requires g.Valid() && RefFreeGrammar(g)
    ensures var r := ParseTree(Initial(StartBuilder(tokens)), g);
            r.Success? ==>
              && (forall s: nat, e: nat :: LinkAt(r.value.b.log, s, e) <==>
                    (0 < e <= |tokens| && tokens[e - 1].kind == Identifier && LastIndex(tokens, Var, e - 1) == Some(s)))
              && (forall k1, k2 :: 0 <= k1 < k2 < |r.value.b.log| && IsRef(r.value.b.log[k1]) && IsRef(r.value.b.log[k2]) ==>
                    r.value.b.log[k1].end != r.value.b.log[k2].end)
  {
    var p := Initial(StartBuilder(tokens));
    InitialGood(tokens);
    InitialExact(tokens);
    RunGood(p, g);
    RunExact(p, g);
    ParseTreeLinks(g, tokens);
    var q := Run(p, g);
    if q.Success? {
      var r := EofCleanup(q.value);
      CleanupExact(q.value);
      CleanupDistinct(q.value);
      assert ParseTree(p, g) == Success(r);
      LinksAreChains(r);
      forall s: nat, e: nat
        ensures LinkAt(r.b.log, s, e) <==>
                (0 < e <= |tokens| && tokens[e - 1].kind == Identifier && LastIndex(tokens, Var, e - 1) == Some(s))
      {
        if 0 < e <= |tokens| && tokens[e - 1].kind == Identifier {
          assert tokens[e - 1] == r.b.tokens[e - 1];
        }
      }
    }
  }
}

=== FILE: marker_log.dfy ===
/** An abstract stand-in for the IDE's tree builder: a cursor over a finite
    token sequence and a log of span markers. A marker handle is its index
    in the log; markers are only ever appended, and their start never
    changes once recorded (rolling back is the one operation that removes
    markers, and only those created after the checkpoint). */
module MarkerLog {
  import opened Tokens

  /** Where a marker stands: still open, completed as a node, discarded,
      or completed as an error element carrying a message. */
  datatype Status = Open | Done(node: NodeType) | Dropped | Error(message: string)

  /** A span from token index `start`; `end` is meaningful once the
      marker is no longer open. */
  datatype Marker = Marker(start: nat, end: nat, status: Status)

  datatype Builder = Builder(tokens: seq<Token>, pos: nat, log: seq<Marker>)

  /** `after` keeps every marker of `before` at the same index with the same start. */
  predicate Extends(before: seq<Marker>, after: seq<Marker>) {
    && |before| <= |after|
    && forall k :: 0 <= k < |before| ==> after[k].start == before[k].start
  }

  lemma ExtendsTrans(a: seq<Marker>, b: seq<Marker>, c: seq<Marker>)
    requires Extends(a, b) && Extends(b, c)
    ensures Extends(a, c)
  {
  }

  predicate Eof(b: Builder) {
    b.pos >= |b.tokens|
  }

  /** Kind of the current token; null at end of input. */
  function TokenType(b: Builder): Option<TokenKind> {
    if b.pos < |b.tokens| then Some(b.tokens[b.pos].kind) else None
  }

  /** Text of the current token; null at end of input. */
  function TokenText(b: Builder): Option<string> {
    if b.pos < |b.tokens| then Some(b.tokens[b.pos].text) else None
  }

  /** Moves past the current token; does nothing at end of input. */
  function Advance(b: Builder): (r: Builder)
    ensures r.tokens == b.tokens && r.log == b.log
    ensures r.pos == if b.pos < |b.tokens| then b.pos + 1 else b.pos
  {
    if b.pos < |b.tokens| then b.(pos := b.pos + 1) else b
  }

  /** Opens a marker at the cursor; its handle is the old length of the log. */
  function Mark(b: Builder): (r: Builder)
    ensures r.tokens == b.tokens && r.pos == b.pos && Extends(b.log, r.log)
    ensures |r.log| == |b.log| + 1 && r.log[|b.log|] == Marker(b.pos, b.pos, Open)
    ensures forall k :: 0 <= k < |b.log| ==> r.log[k] == b.log[k]
  {
    b.(log := b.log + [Marker(b.pos, b.pos, Open)])
  }

  /** Opens a marker that starts where marker `m` starts, so that completing
      it later makes it the parent of `m`; its handle is the old length. */
  function Precede(b: Builder, m: nat): (r: Builder)
    requires m < |b.log|
    ensures r.tokens == b.tokens && r.pos == b.pos && Extends(b.log, r.log)
    ensures |r.log| == |b.log| + 1 && r.log[|b.log|] == Marker(b.log[m].start, b.log[m].start, Open)
    ensures forall k :: 0 <= k < |b.log| ==> r.log[k] == b.log[k]
  {
    b.(log := b.log + [Marker(b.log[m].start, b.log[m].start, Open)])
  }

  /** `done`: completes marker `m` as a node of type `t` ending at the cursor. */
  function Complete(b: Builder, m: nat, t: NodeType): (r: Builder)
    requires m < |b.log|
    ensures r.tokens == b.tokens && r.pos == b.pos && Extends(b.log, r.log) && |r.log| == |b.log|
    ensures r.log[m] == Marker(b.log[m].start, b.pos, Done(t))
    ensures forall k :: 0 <= k < |b.log| && k != m ==> r.log[k] == b.log[k]
  {
    b.(log := b.log[m := Marker(b.log[m].start, b.pos, Done(t))])
  }

  /** `doneBefore`: completes marker `m` as a node of type `t` ending where `before` starts. */
  function CompleteBefore(b: Builder, m: nat, t: NodeType, before: nat): (r: Builder)
    requires m < |b.log| && before < |b.log|
    ensures r.tokens == b.tokens && r.pos == b.pos && Extends(b.log, r.log) && |r.log| == |b.log|
    ensures r.log[m] == Marker(b.log[m].start, b.log[before].start, Done(t))
    ensures forall k :: 0 <= k < |b.log| && k != m ==> r.log[k] == b.log[k]
  {
    b.(log := b.log[m := Marker(b.log[m].start, b.log[before].start, Done(t))])
  }

  /** Discards marker `m`: it produces no node. */
  function Drop(b: Builder, m: nat): (r: Builder)
    requires m < |b.log|
    ensures r.tokens == b.tokens && r.pos == b.pos && Extends(b.log, r.log) && |r.log| == |b.log|
    ensures r.log[m] == b.log[m].(status := Dropped)
    ensures forall k :: 0 <= k < |b.log| && k != m ==> r.log[k] == b.log[k]
  {
    b.(log := b.log[m := b.log[m].(status := Dropped)])
  }

  /** Completes marker `m` as an error element ending at the cursor. */
  function ErrorMark(b: Builder, m: nat, message: string): (r: Builder)
    requires m < |b.log|
    ensures r.tokens == b.tokens && r.pos == b.pos && Extends(b.log, r.log) && |r.log| == |b.log|
    ensures r.log[m] == Marker(b.log[m].start, b.pos, Error(message))
    ensures forall k :: 0 <= k < |b.log| && k != m ==> r.log[k] == b.log[k]
  {
    b.(log := b.log[m := Marker(b.log[m].start, b.pos, Error(message))])
  }

  /** Returns the cursor to where checkpoint `m` was opened and forgets `m`
      and every marker opened after it. */
  function RollbackTo(b: Builder, m: nat): Builder
    requires m < |b.log|
  {
    b.(pos := b.log[m].start, log := b.log[..m])
  }
}

=== FILE: properties.dfy ===
/** Properties of single operations of the tree builder: lookahead, opening
    and dropping block heads, block matching, and end-of-input cleanup. */
module Properties {
  import opened Tokens
  import opened Grammar
  import opened MarkerLog
  import opened BaseParser
  import opened Discipline

  // ---------------------------------------------------------------------
  // Lookahead

  /** Within one iteration the lookahead is stable: once a peek has filled
      the cache, asking again for the kind or the text returns the same
      token without touching the builder. */
  lemma LookaheadCached(p: ParserState)
    requires Wf(p) && CacheOk(p)
    ensures var (q, k) := GetNextToken(p);
            && q.b == p.b && k == NextKind(p.b)
            && GetNextToken(q) == (q, k)
            && GetNextTokenText(q).1 == NextText(p.b) && GetNextTokenText(q).0.b == p.b
  {
  }

  // ---------------------------------------------------------------------
  // Opening a block head

  /** A block-head marker is opened exactly when the token is a block start,
      no head is being marked, and the next token has an entry in the
      statement map; it then sits at the cursor and remembers the keyword. */
  lemma BlockHeadOpens(p: ParserState, g: Tables, t: TokenKind)
    requires Wf(p) && CacheOk(p) && g.Valid()
    ensures var r := BeforeConsume(p, g, t);
            var next := NextKind(p.b);
            var opens := t == BlockStart && !p.markingBlock && next.Some? && next.value in g.statementMap;
            && (r.blockMarker != p.blockMarker <==> opens)
            && (!opens ==> r.markingBlock == p.markingBlock)
            && (opens ==>
                  && r.markingBlock
                  && r.blockMarker == Some(|p.b.log|)
                  && |r.b.log| == |p.b.log| + 1
                  && r.b.log[|p.b.log|] == Marker(p.b.pos, p.b.pos, Open)
                  && r.blockTokenText == NextText(p.b)
                  && r.blockStartTokens == Some(g.statementMap[next.value])
                  && r.blockType == Some(g.blockTypeMap[next.value]))
  {
    BeforeConsumeByToken(p, g, t);
    if t == BlockStart {
      HeadOpens(p, g);
    } else if t == Var {
      assert SameBlocks(p, OpenVar(p, t));
    } else if t == CommentStart {
      assert SameBlocks(p, OpenComment(p, t));
    } else if t == ThemeVar {
      assert SameBlocks(p, OpenTheme(p, t));
    }
  }

  /** The block-head clause on its own, for a block-start token. */
  lemma HeadOpens(p: ParserState, g: Tables)
    requires Wf(p) && CacheOk(p) && g.Valid()
    ensures var r := OpenBlockHead(p, g, BlockStart);
            var next := NextKind(p.b);
            var opens := !p.markingBlock && next.Some? && next.value in g.statementMap;
            && (r.blockMarker != p.blockMarker <==> opens)
            && (!opens ==> r.markingBlock == p.markingBlock)
            && (opens ==>
                  && r.markingBlock
                  && r.blockMarker == Some(|p.b.log|)
                  && |r.b.log| == |p.b.log| + 1
                  && r.b.log[|p.b.log|] == Marker(p.b.pos, p.b.pos, Open)
                  && r.blockTokenText == NextText(p.b)
                  && r.blockStartTokens == Some(g.statementMap[next.value])
                  && r.blockType == Some(g.blockTypeMap[next.value]))
  {
    if !p.markingBlock {
      var (q1, next) := GetNextToken(p);
      assert next == NextKind(p.b);
      if next.Some? && next.value in g.statementMap {
        assert Held(p, p.blockMarker);
      }
    }
  }

  /** A block start that does not open a head leaves the log and the head
      flag as they were. */
  lemma BlockStartSkipped(p: ParserState, g: Tables)
    requires Wf(p) && CacheOk(p) && g.Valid()
    requires p.markingBlock || NextKind(p.b).None? || NextKind(p.b).value !in g.statementMap
    ensures var r := BeforeConsume(p, g, BlockStart);
            r.markingBlock == p.markingBlock && r.b.log == p.b.log
  {
    var r := OpenBlockHead(p, g, BlockStart);
    assert BeforeConsume(p, g, BlockStart) == LapseTheme(r, BlockStart);
    if !p.markingBlock {
      var (q1, next) := GetNextToken(p);
      assert next == NextKind(p.b);
    }
  }

  // ---------------------------------------------------------------------
  // Dropping a bad block head

  /** The clauses of afterConsume before block matching leave an open block
      head, its flag and both stacks alone. */
  lemma EarlyClausesKeepHead(p: ParserState, t: TokenKind)
    requires Inv(p) && p.markingBlock
    ensures var p3 := WrapThemePath(CloseThemeDir(CloseVar(p, t), t), t);
            var r4 := ChainIdentifier(p3, t);
            r4.Success? ==>
              var r5 := CloseComment(r4.value, t);
              r5.Success? ==>
                var q := r5.value;
                && Inv(q) && q.markingBlock && q.blockMarker == p.blockMarker
                && q.blockStartTokens == p.blockStartTokens && q.blockType == p.blockType
                && q.blockTokenText == p.blockTokenText
                && q.b.log[p.blockMarker.value] == p.b.log[p.blockMarker.value]
                && q.blockStack == p.blockStack && q.statementsStack == p.statementsStack
                && |q.b.log| >= |p.b.log|
  {
    var p1 := CloseVar(p, t);
    CloseVarInv(p, t);
    var p2 := CloseThemeDir(p1, t);
    CloseThemeDirInv(p1, t);
    var p3 := WrapThemePath(p2, t);
    WrapThemePathInv(p2, t);
    assert p3.b.log[p.blockMarker.value] == p.b.log[p.blockMarker.value];
    var r4 := ChainIdentifier(p3, t);
    ChainIdentifierInv(p3, t);
    if r4.Success? {
      CloseCommentInv(r4.value, t);
    }
  }

  /** Inside a block head, a token other than the block end keeps the head
      exactly when the head's allowed-token set contains it; otherwise the
      head marker is dropped, produces no node, and the flag is cleared. */
  lemma BadHeadDropped(p: ParserState, g: Tables, t: TokenKind)
    requires Inv(p) && p.markingBlock && t != BlockEnd
    ensures var r := AfterConsume(p, g, t);
            var head := p.blockMarker.value;
            r.Success? ==>
              && (r.value.markingBlock <==> t in p.blockStartTokens.value)
              && (r.value.markingBlock ==>
                    r.value.blockMarker == p.blockMarker && r.value.b.log[head].status == Open)
              && (!r.value.markingBlock ==> r.value.b.log[head].status == Dropped)
              && r.value.blockStack == p.blockStack && r.value.statementsStack == p.statementsStack
  {
    EarlyClausesKeepHead(p, t);
  }

  // ---------------------------------------------------------------------
  // Block matching (the block-end branch of afterConsume)

  /** Completing a structural head pushes one opener record and one fresh
      body marker; the head becomes a node of its own type. */
  lemma StructuralPush(p: ParserState, g: Tables)
    requires Inv(p) && p.markingBlock && p.blockType.value in g.blockStatements
    ensures var r := CloseBlock(p, g, BlockEnd);
            var head := p.blockMarker.value;
            var n := |p.b.log|;
            && !r.markingBlock
            && r.b.log[head] == Marker(p.b.log[head].start, p.b.pos, Done(p.blockType.value))
            && r.blockStack == p.blockStack + [OpenBlock(head, p.blockTokenText.value)]
            && r.statementsStack == p.statementsStack + [n]
            && |r.b.log| == n + 1 && r.b.log[n] == Marker(p.b.pos, p.b.pos, Open)
            && InStep(r)
  {
  }

  /** Any other head (one that is neither structural, nor a branch, nor a
      terminator) is only completed as a node of its own type; both stacks
      and every other marker stay as they were. */
  lemma PlainHeadCompleted(p: ParserState, g: Tables)
    requires Inv(p) && p.markingBlock
    requires p.blockType.value !in g.blockStatements
    requires p.blockType.value != ElseIfStatement && p.blockType.value != ElseStatement
    requires p.blockType.value != BlockEndStatement
    ensures var r := CloseBlock(p, g, BlockEnd);
            var head := p.blockMarker.value;
            && !r.markingBlock
            && r.b.log[head] == Marker(p.b.log[head].start, p.b.pos, Done(p.blockType.value))
            && |r.b.log| == |p.b.log|
            && (forall k :: 0 <= k < |p.b.log| && k != head ==> r.b.log[k] == p.b.log[k])
            && r.blockStack == p.blockStack
            && r.statementsStack == p.statementsStack
            && InStep(r)
  {
  }

  /** An else or else-if head closes the current body just before itself
      and opens the next one: the statements stack keeps its height and the
      block stack is untouched. With no open body it changes neither stack. */
  lemma BranchRebase(p: ParserState, g: Tables)
    requires Inv(p) && p.markingBlock
    requires p.blockType.value !in g.blockStatements
    requires p.blockType.value == ElseIfStatement || p.blockType.value == ElseStatement
    ensures var r := CloseBlock(p, g, BlockEnd);
            var head := p.blockMarker.value;
            var n := |p.b.log|;
            var s := p.statementsStack;
            && !r.markingBlock
            && r.b.log[head] == Marker(p.b.log[head].start, p.b.pos, Done(p.blockType.value))
            && r.blockStack == p.blockStack
            && |r.statementsStack| == |s|
            && (|s| > 0 ==>
                  && r.statementsStack == Pop(s) + [n]
                  && r.b.log[Top(s)] == Marker(p.b.log[Top(s)].start, p.b.log[head].start, Done(Statements))
                  && r.b.log[n] == Marker(p.b.pos, p.b.pos, Open))
            && (|s| == 0 ==> r.statementsStack == s && |r.b.log| == n)
  {
  }

  /** A terminator pops at most one entry from each stack. It produces a
      block-statement node starting at its opener exactly when its text is
      `end_` followed by the opener's text; on a match the popped body ends
      where the terminator's head starts, and on a mismatch it is dropped.
      With an empty block stack nothing is matched. */
  lemma TerminatorMatch(p: ParserState, g: Tables)
    requires Inv(p) && p.markingBlock
    requires p.blockType.value !in g.blockStatements
    requires p.blockType.value == BlockEndStatement
    ensures var r := CloseBlock(p, g, BlockEnd);
            var n := |p.b.log|;
            var s := p.statementsStack;
            var bs := p.blockStack;
            var matched := |bs| > 0 && "end_" + Top(bs).text == p.blockTokenText.value;
            && !r.markingBlock
            && r.statementsStack == (if |s| > 0 then Pop(s) else s)
            && r.blockStack == (if |bs| > 0 then Pop(bs) else bs)
            && InStep(r)
            && (|r.b.log| > n && r.b.log[n].status == Done(BlockStatement) <==> matched)
            && (matched ==>
                  r.b.log[n] == Marker(p.b.log[Top(bs).marker].start, p.b.pos, Done(BlockStatement)))
            && (|s| > 0 && !matched ==> r.b.log[Top(s)].status == Dropped)
            && (|s| > 0 && matched ==>
                  r.b.log[Top(s)] == Marker(p.b.log[Top(s)].start, p.b.log[p.blockMarker.value].start, Done(Statements)))
            && (|bs| == 0 ==> |r.b.log| == n)
  {
    var head := p.blockMarker.value;
    var p1 := p.(b := Complete(p.b, head, p.blockType.value), markingBlock := false);
    assert Inv(p1);
    TerminateInv(p1, head);
    var body := if |p1.statementsStack| > 0 then Some(Top(p1.statementsStack)) else None;
    var p2 := CloseBody(p1, head);
    assert CloseBlock(p, g, BlockEnd) == MatchOpener(p2, body);
    assert |p2.b.log| == |p.b.log| && p2.b.pos == p.b.pos;
    assert p2.blockStack == p.blockStack && p2.blockTokenText == p.blockTokenText;
    if |p.statementsStack| > 0 {
      var body := Top(p.statementsStack);
      assert p2.b.log[body] == Marker(p.b.log[body].start, p.b.log[head].start, Done(Statements));
    }
    OpenerMatched(p2, body);
  }

  /** The second half of a terminator on its own: the innermost opener is
      popped, a block-statement node is wrapped around it exactly on a
      match, and the body handed over is dropped exactly on a mismatch. */
  lemma OpenerMatched(q: ParserState, body: Option<nat>)
    requires Wf(q) && Held(q, body) && q.blockTokenText.Some?
    ensures var r := MatchOpener(q, body);
            var n := |q.b.log|;
            var bs := q.blockStack;
            var matched := |bs| > 0 && "end_" + Top(bs).text == q.blockTokenText.value;
            && r.blockStack == (if |bs| > 0 then Pop(bs) else bs)
            && r.statementsStack == q.statementsStack
            && r.markingBlock == q.markingBlock
            && (|r.b.log| > n && r.b.log[n].status == Done(BlockStatement) <==> matched)
            && (matched ==>
                  r.b.log[n] == Marker(q.b.log[Top(bs).marker].start, q.b.pos, Done(BlockStatement)))
            && (body.Some? && |bs| > 0 && !matched ==> r.b.log[body.value].status == Dropped)
            && (body.Some? && matched ==> r.b.log[body.value] == q.b.log[body.value])
            && (|bs| == 0 ==> r == q)
  {
  }

  // ---------------------------------------------------------------------
  // End of input

  /** After cleanup no head is being marked, an unclosed head became an
      error element carrying its keyword text, an open comment was dropped,
      every body marker was dropped and the statements stack is empty,
      while the block stack is left as it was. */
  lemma CleanupPost(p: ParserState)
    requires Inv(p)
    ensures var r := EofCleanup(p);
            && !r.markingBlock
            && (p.markingBlock ==>
                  r.b.log[p.blockMarker.value] ==
                  Marker(p.b.log[p.blockMarker.value].start, p.b.pos, Error(p.blockTokenText.value)))
            && (p.markingComment ==> r.b.log[p.commentMarker.value].status == Dropped)
            && r.statementsStack == []
            && (forall i :: 0 <= i < |p.statementsStack| ==> r.b.log[p.statementsStack[i]].status == Dropped)
            && r.blockStack == p.blockStack
  {
  }
}

=== FILE: provenance.dfy ===
/** Field-reference nodes have a single source: the identifier clause of
    afterConsume. Every other clause, and the cleanup, completes markers
    only with other node types, provided the grammar types no block keyword
    as a field reference. */
module Provenance {
  import opened Tokens
  import opened Grammar
  import opened MarkerLog
  import opened BaseParser
  import opened References

  /** Every field-reference node of `b` was one in `a` already, or sits at
      index `made`. */
  predicate RefsFrom(a: seq<Marker>, b: seq<Marker>, made: Option<nat>) {
    forall k :: 0 <= k < |b| && IsRef(b[k]) ==> (k < |a| && IsRef(a[k])) || made == Some(k)
  }

  lemma RefsFromTrans(a: seq<Marker>, b: seq<Marker>, c: seq<Marker>, f1: Option<nat>, f2: Option<nat>)
    requires RefsFrom(a, b, f1) && RefsFrom(b, c, f2) && (f1.None? || f2.None?)
    ensures RefsFrom(a, c, if f1.Some? then f1 else f2)
  {
  }

  /** The grammar types no block keyword as a field reference. */
  predicate RefFreeGrammar(g: Tables) {
    FieldReference !in g.blockTypeMap.Values
  }

  /** The remembered block type is no field reference. */
  predicate RefFreeHead(p: ParserState) {
    p.blockType != Some(FieldReference)
  }

  // ---------------------------------------------------------------------
  // The builder operations

  lemma MarkMakesNoRefs(b: Builder)
    ensures RefsFrom(b.log, Mark(b).log, None)
  {
    assert forall k :: 0 <= k < |b.log| ==> Mark(b).log[k] == b.log[k];
  }

  lemma PrecedeMakesNoRefs(b: Builder, m: nat)
    requires m < |b.log|
    ensures RefsFrom(b.log, Precede(b, m).log, None)
  {
    assert forall k :: 0 <= k < |b.log| ==> Precede(b, m).log[k] == b.log[k];
  }

  /** `done` makes a field reference exactly when asked for one. */
  lemma CompleteMakesRef(b: Builder, m: nat, t: NodeType)
    requires m < |b.log|
    ensures RefsFrom(b.log, Complete(b, m, t).log, if t == FieldReference then Some(m) else None)
  {
    assert forall k :: 0 <= k < |b.log| && k != m ==> Complete(b, m, t).log[k] == b.log[k];
  }

  lemma CompleteBeforeMakesNoRefs(b: Builder, m: nat, before: nat)
    requires m < |b.log| && before < |b.log|
    ensures RefsFrom(b.log, CompleteBefore(b, m, Statements, before).log, None)
  {
    assert forall k :: 0 <= k < |b.log| && k != m ==> CompleteBefore(b, m, Statements, before).log[k] == b.log[k];
  }

  lemma DropMakesNoRefs(b: Builder, m: nat)
    requires m < |b.log|
    ensures RefsFrom(b.log, Drop(b, m).log, None)
  {
    assert forall k :: 0 <= k < |b.log| && k != m ==> Drop(b, m).log[k] == b.log[k];
  }

  lemma ErrorMakesNoRefs(b: Builder, m: nat, message: string)
    requires m < |b.log|
    ensures RefsFrom(b.log, ErrorMark(b, m, message).log, None)
  {
    assert forall k :: 0 <= k < |b.log| && k != m ==> ErrorMark(b, m, message).log[k] == b.log[k];
  }

  // ---------------------------------------------------------------------
  // beforeConsume opens markers and completes none

  /** beforeConsume makes no field reference, whatever the grammar: it only
      opens markers. */
  lemma BeforeConsumeMakesNoRefs(p: ParserState, g: Tables, t: TokenKind)
    requires Wf(p) && CacheOk(p) && g.Valid()
    ensures RefsFrom(p.b.log, BeforeConsume(p, g, t).b.log, None)
  {
    BeforeConsumeByToken(p, g, t);
    MarkMakesNoRefs(p.b);
    if t == Var {
      assert OpenVar(p, t).b.log == Mark(p.b).log;
    } else if t == CommentStart {
      assert OpenComment(p, t).b.log == Mark(p.b).log;
    } else if t == ThemeVar {
      assert OpenTheme(p, t).b.log == Mark(p.b).log;
    }
  }

  /** Under a grammar that types no keyword as a field reference, the head
      type beforeConsume records is no field reference either. */
  lemma BeforeConsumeKeepsHeadClear(p: ParserState, g: Tables, t: TokenKind)
    requires Wf(p) && CacheOk(p) && g.Valid() && RefFreeGrammar(g) && RefFreeHead(p)
    ensures RefFreeHead(BeforeConsume(p, g, t))
  {
    var p3 := OpenTheme(OpenComment(OpenVar(p, t), t), t);
    var p4 := OpenBlockHead(p3, g, t);
    assert BeforeConsume(p, g, t).blockType == p4.blockType;
    assert p3.blockType == p.blockType;
    if t == BlockStart && !p3.markingBlock {
      var (q1, next) := GetNextToken(p3);
      assert Lookup(g.blockTypeMap, next) != Some(FieldReference);
    } else {
      assert p4 == p3;
    }
  }

  // ---------------------------------------------------------------------
  // afterConsume: only the identifier clause makes a field reference

  lemma CloseVarMakesNoRefs(p: ParserState, t: TokenKind)
    requires Wf(p)
    ensures RefsFrom(p.b.log, CloseVar(p, t).b.log, None)
  {
    if t == Var && p.markingVar {
      CompleteMakesRef(p.b, p.varMarker.value, NamedVar);
    }
  }

  lemma CloseThemeDirMakesNoRefs(p: ParserState, t: TokenKind)
    requires Wf(p)
    ensures RefsFrom(p.b.log, CloseThemeDir(p, t).b.log, None)
  {
    if p.markingTheme && t == ThemeVar {
      CompleteMakesRef(p.b, p.themeMarker.value, ThemeDir);
    }
  }

  lemma WrapThemePathMakesNoRefs(p: ParserState, t: TokenKind)
    requires Wf(p)
    ensures RefsFrom(p.b.log, WrapThemePath(p, t).b.log, None)
  {
    if t == StringLit && p.markingTheme {
      var b1 := Precede(p.b, p.themeMarker.value);
      PrecedeMakesNoRefs(p.b, p.themeMarker.value);
      CompleteMakesRef(b1, |p.b.log|, ThemeFilePath);
      RefsFromTrans(p.b.log, b1.log, WrapThemePath(p, t).b.log, None, None);
    }
  }

  /** The identifier clause makes the one field reference of an iteration,
      at the end of the log. */
  lemma ChainIdentifierMakesRef(p: ParserState, t: TokenKind)
    requires Wf(p)
    ensures var r := ChainIdentifier(p, t);
            r.Success? ==> RefsFrom(p.b.log, r.value.b.log, if t == Identifier then Some(|p.b.log|) else None)
  {
    var r := ChainIdentifier(p, t);
    if t == Identifier && r.Success? {
      var inner := if p.identifierMarker.Some? then p.identifierMarker.value else p.varMarker.value;
      var b1 := Precede(p.b, inner);
      PrecedeMakesNoRefs(p.b, inner);
      CompleteMakesRef(b1, |p.b.log|, FieldReference);
      assert r.value.b.log == Complete(b1, |p.b.log|, FieldReference).log;
      RefsFromTrans(p.b.log, b1.log, r.value.b.log, None, Some(|p.b.log|));
    }
  }

  lemma CloseCommentMakesNoRefs(p: ParserState, t: TokenKind)
    requires Wf(p)
    ensures var r := CloseComment(p, t);
            r.Success? ==> RefsFrom(p.b.log, r.value.b.log, None)
  {
    if t == CommentEnd && p.commentMarker.Some? {
      CompleteMakesRef(p.b, p.commentMarker.value, CommentStatement);
    }
  }

  lemma OpenBodyMakesNoRefs(p: ParserState, head: nat)
    requires Wf(p) && head < |p.b.log| && p.blockTokenText.Some?
    ensures RefsFrom(p.b.log, OpenBody(p, head).b.log, None)
  {
    MarkMakesNoRefs(p.b);
  }

  lemma NextBranchMakesNoRefs(p: ParserState, head: nat)
    requires Wf(p) && head < |p.b.log|
    ensures RefsFrom(p.b.log, NextBranch(p, head).b.log, None)
  {
    if |p.statementsStack| > 0 {
      var b1 := CompleteBefore(p.b, Top(p.statementsStack), Statements, head);
      CompleteBeforeMakesNoRefs(p.b, Top(p.statementsStack), head);
      MarkMakesNoRefs(b1);
      RefsFromTrans(p.b.log, b1.log, Mark(b1).log, None, None);
    }
  }

  lemma CloseBodyMakesNoRefs(p: ParserState, head: nat)
    requires Wf(p) && head < |p.b.log|
    ensures RefsFrom(p.b.log, CloseBody(p, head).b.log, None)
  {
    if |p.statementsStack| > 0 {
      CompleteBeforeMakesNoRefs(p.b, Top(p.statementsStack), head);
    }
  }

  lemma MatchOpenerMakesNoRefs(p: ParserState, body: Option<nat>)
    requires Wf(p) && Held(p, body)
    ensures RefsFrom(p.b.log, MatchOpener(p, body).b.log, None)
  {
    if |p.blockStack| > 0 {
      var level := Top(p.blockStack);
      if Some("end_" + level.text) == p.blockTokenText {
        var b1 := Precede(p.b, level.marker);
        PrecedeMakesNoRefs(p.b, level.marker);
        CompleteMakesRef(b1, |p.b.log|, BlockStatement);
        RefsFromTrans(p.b.log, b1.log, Complete(b1, |p.b.log|, BlockStatement).log, None, None);
      } else if body.Some? {
        DropMakesNoRefs(p.b, body.value);
      }
    }
  }

  lemma TerminateMakesNoRefs(p: ParserState, head: nat)
    requires Wf(p) && head < |p.b.log|
    ensures RefsFrom(p.b.log, Terminate(p, head).b.log, None)
  {
    var body := if |p.statementsStack| > 0 then Some(Top(p.statementsStack)) else None;
    var p1 := CloseBody(p, head);
    CloseBodyMakesNoRefs(p, head);
    MatchOpenerMakesNoRefs(p1, body);
    RefsFromTrans(p.b.log, p1.b.log, MatchOpener(p1, body).b.log, None, None);
  }

  lemma CloseBlockMakesNoRefs(p: ParserState, g: Tables, t: TokenKind)
    requires Wf(p) && RefFreeHead(p)
    ensures RefsFrom(p.b.log, CloseBlock(p, g, t).b.log, None)
    ensures CloseBlock(p, g, t).blockType == p.blockType
  {
    if p.markingBlock && t == BlockEnd {
      var head := p.blockMarker.value;
      var kind := p.blockType.value;
      var p1 := p.(b := Complete(p.b, head, kind), markingBlock := false);
      CompleteMakesRef(p.b, head, kind);
      var r :=
        if kind in g.blockStatements then OpenBody(p1, head)
        else if kind == ElseIfStatement || kind == ElseStatement then NextBranch(p1, head)
        else if kind == BlockEndStatement then Terminate(p1, head)
        else p1;
      assert CloseBlock(p, g, t) == r;
      if kind in g.blockStatements {
        OpenBodyMakesNoRefs(p1, head);
      } else if kind == ElseIfStatement || kind == ElseStatement {
        NextBranchMakesNoRefs(p1, head);
      } else if kind == BlockEndStatement {
        TerminateMakesNoRefs(p1, head);
      }
      RefsFromTrans(p.b.log, p1.b.log, r.b.log, None, None);
    }
  }

  lemma DropBadHeadMakesNoRefs(p: ParserState, t: TokenKind)
    requires Wf(p)
    ensures RefsFrom(p.b.log, DropBadHead(p, t).b.log, None)
    ensures DropBadHead(p, t).blockType == p.blockType
  {
    if p.markingBlock && t !in p.blockStartTokens.value {
      DropMakesNoRefs(p.b, p.blockMarker.value);
    }
  }

  /** The clauses before block matching make at most the identifier's node. */
  lemma ResolveMakesRef(p: ParserState, t: TokenKind)
    requires Wf(p)
    ensures var p3 := WrapThemePath(CloseThemeDir(CloseVar(p, t), t), t);
            var r4 := ChainIdentifier(p3, t);
            r4.Success? ==>
              var r5 := CloseComment(r4.value, t);
              r5.Success? ==>
                RefsFrom(p.b.log, r5.value.b.log, if t == Identifier then Some(|p.b.log|) else None)
  {
    var p1 := CloseVar(p, t);
    CloseVarMakesNoRefs(p, t);
    var p2 := CloseThemeDir(p1, t);
    CloseThemeDirMakesNoRefs(p1, t);
    RefsFromTrans(p.b.log, p1.b.log, p2.b.log, None, None);
    var p3 := WrapThemePath(p2, t);
    WrapThemePathMakesNoRefs(p2, t);
    RefsFromTrans(p.b.log, p2.b.log, p3.b.log, None, None);
    assert t == Identifier ==> |p3.b.log| == |p.b.log|;
    var r4 := ChainIdentifier(p3, t);
    ChainIdentifierMakesRef(p3, t);
    if r4.Success? {
      var p4 := r4.value;
      var made := if t == Identifier then Some(|p.b.log|) else None;
      RefsFromTrans(p.b.log, p3.b.log, p4.b.log, None, made);
      CloseCommentMakesNoRefs(p4, t);
      var r5 := CloseComment(p4, t);
      if r5.Success? {
        RefsFromTrans(p.b.log, p4.b.log, r5.value.b.log, made, None);
      }
    }
  }

  /** Block matching and head dropping make no field reference. */
  lemma MatchingMakesNoRefs(p: ParserState, g: Tables, t: TokenKind)
    requires Wf(p) && RefFreeHead(p)
    ensures var r := DropBadHead(CloseBlock(p, g, t), t);
            RefsFrom(p.b.log, r.b.log, None) && r.blockType == p.blockType
  {
    var p6 := CloseBlock(p, g, t);
    CloseBlockMakesNoRefs(p, g, t);
    DropBadHeadMakesNoRefs(p6, t);
    RefsFromTrans(p.b.log, p6.b.log, DropBadHead(p6, t).b.log, None, None);
  }

  lemma AfterConsumeMakesRef(p: ParserState, g: Tables, t: TokenKind)
    requires Wf(p) && RefFreeHead(p)
    ensures var r := AfterConsume(p, g, t);
            r.Success? ==>
              && RefsFrom(p.b.log, r.value.b.log, if t == Identifier then Some(|p.b.log|) else None)
              && RefFreeHead(r.value)
  {
    var p3 := WrapThemePath(CloseThemeDir(CloseVar(p, t), t), t);
    var r4 := ChainIdentifier(p3, t);
    ResolveMakesRef(p, t);
    if r4.Success? {
      var r5 := CloseComment(r4.value, t);
      if r5.Success? {
        var p5 := r5.value;
        assert p5.blockType == p.blockType;
        MatchingMakesNoRefs(p5, g, t);
        var made := if t == Identifier then Some(|p.b.log|) else None;
        RefsFromTrans(p.b.log, p5.b.log, DropBadHead(CloseBlock(p5, g, t), t).b.log, made, None);
        assert AfterConsume(p, g, t) == Success(DropBadHead(CloseBlock(p5, g, t), t));
      }
    }
  }

  /** One iteration makes a field-reference node only for an identifier, and
      then only the one at the end of the old log. */
  lemma StepMakesRef(p: ParserState, g: Tables)
    requires Wf(p) && CacheOk(p) && g.Valid() && !Eof(p.b) && RefFreeGrammar(g) && RefFreeHead(p)
    ensures var r := Step(p, g);
            var t := p.b.tokens[p.b.pos].kind;
            r.Success? ==>
              && RefsFrom(p.b.log, r.value.b.log, if t == Identifier then Some(|p.b.log|) else None)
              && RefFreeHead(r.value)
  {
    var t := p.b.tokens[p.b.pos].kind;
    var p1 := BeforeConsume(p, g, t);
    BeforeConsumeMakesNoRefs(p, g, t);
    BeforeConsumeKeepsHeadClear(p, g, t);
    var p2 := p1.(b := Advance(p1.b));
    var r := AfterConsume(p2, g, t);
    AfterConsumeMakesRef(p2, g, t);
    if r.Success? {
      if t == Identifier {
        assert |p1.b.log| == |p.b.log| by {
          BeforeLog0(p, g, t);
        }
      }
      RefsFromTrans(p.b.log, p2.b.log, r.value.b.log, None, if t == Identifier then Some(|p2.b.log|) else None);
      assert Step(p, g) == Success(r.value.(nextToken := None, nextTokenText := None));
    }
  }

  /** beforeConsume opens no marker for an identifier. */
  lemma BeforeLog0(p: ParserState, g: Tables, t: TokenKind)
    requires Wf(p) && CacheOk(p) && g.Valid() && t == Identifier
    ensures BeforeConsume(p, g, t).b.log == p.b.log
  {
    var p3 := OpenTheme(OpenComment(OpenVar(p, t), t), t);
    assert p3.b.log == p.b.log;
    assert OpenBlockHead(p3, g, t) == p3;
  }

  /** The cleanup makes no field-reference node. */
  lemma EofCleanupMakesNoRefs(p: ParserState)
    requires Wf(p)
    ensures RefsFrom(p.b.log, EofCleanup(p).b.log, None)
  {
    var p1 :=
      if p.markingBlock then
        p.(b := ErrorMark(p.b, p.blockMarker.value, p.blockTokenText.value), markingBlock := false)
      else p;
    if p.markingBlock {
      ErrorMakesNoRefs(p.b, p.blockMarker.value, p.blockTokenText.value);
    }
    var p2 := if p1.markingComment then p1.(b := Drop(p1.b, p1.commentMarker.value)) else p1;
    if p1.markingComment {
      DropMakesNoRefs(p1.b, p1.commentMarker.value);
    }
    RefsFromTrans(p.b.log, p1.b.log, p2.b.log, None, None);
    var p3 := DrainStatements(p2);
    assert RefsFrom(p2.b.log, p3.b.log, None);
    RefsFromTrans(p.b.log, p2.b.log, p3.b.log, None, None);
  }
}

=== FILE: references.dfy ===
/** Field-reference nodes are permanent: once a marker is completed as a
    field reference, no later clause, iteration or cleanup completes, drops
    or removes it again. This is what lets every link of a variable's
    field-reference chain survive to the end of the parse. */
module References {
  import opened Tokens
  import opened Grammar
  import opened MarkerLog
  import opened BaseParser
  import opened Discipline

  predicate IsRef(m: Marker) {
    m.status == Done(FieldReference)
  }

  /** Every field-reference marker of `a` is in `b`, at the same index and unchanged. */
  predicate KeepsRefs(a: seq<Marker>, b: seq<Marker>) {
    forall k :: 0 <= k < |a| && IsRef(a[k]) ==> k < |b| && b[k] == a[k]
  }

  lemma KeepsRefsTrans(a: seq<Marker>, b: seq<Marker>, c: seq<Marker>)
    requires KeepsRefs(a, b) && KeepsRefs(b, c)
    ensures KeepsRefs(a, c)
  {
  }

  predicate NotRef(log: seq<Marker>, o: Option<nat>) {
    o.Some? && o.value < |log| ==> !IsRef(log[o.value])
  }

  /** The markers a later clause may resolve without checking their state
      (the comment marker on any comment end, the variable and theme markers
      while their flags are set) are no field references. The open block
      head and the open bodies are covered by `Marked`: they are open. */
  predicate RefSafe(p: ParserState) {
    && NotRef(p.b.log, p.commentMarker)
    && (p.markingVar ==> NotRef(p.b.log, p.varMarker))
    && (p.markingTheme ==> NotRef(p.b.log, p.themeMarker))
  }

  lemma InitialRefSafe(tokens: seq<Token>)
    ensures RefSafe(Initial(StartBuilder(tokens)))
  {
  }

  // ---------------------------------------------------------------------
  // beforeConsume only opens markers

  lemma OpenVarRefs(p: ParserState, t: TokenKind)
    requires Wf(p) && RefSafe(p)
    ensures RefSafe(OpenVar(p, t)) && KeepsRefs(p.b.log, OpenVar(p, t).b.log)
  {
  }

  lemma OpenCommentRefs(p: ParserState, t: TokenKind)
    requires Wf(p) && RefSafe(p)
    ensures RefSafe(OpenComment(p, t)) && KeepsRefs(p.b.log, OpenComment(p, t).b.log)
  {
  }

  lemma OpenThemeRefs(p: ParserState, t: TokenKind)
    requires Wf(p) && RefSafe(p)
    ensures RefSafe(OpenTheme(p, t)) && KeepsRefs(p.b.log, OpenTheme(p, t).b.log)
  {
  }

  lemma OpenBlockHeadRefs(p: ParserState, g: Tables, t: TokenKind)
    requires Wf(p) && CacheOk(p) && g.Valid() && RefSafe(p)
    ensures RefSafe(OpenBlockHead(p, g, t)) && KeepsRefs(p.b.log, OpenBlockHead(p, g, t).b.log)
  {
  }

  lemma BeforeConsumeRefs(p: ParserState, g: Tables, t: TokenKind)
    requires Wf(p) && CacheOk(p) && g.Valid() && RefSafe(p)
    ensures RefSafe(BeforeConsume(p, g, t)) && KeepsRefs(p.b.log, BeforeConsume(p, g, t).b.log)
  {
    var p1 := OpenVar(p, t);
    OpenVarRefs(p, t);
    var p2 := OpenComment(p1, t);
    OpenCommentRefs(p1, t);
    KeepsRefsTrans(p.b.log, p1.b.log, p2.b.log);
    var p3 := OpenTheme(p2, t);
    OpenThemeRefs(p2, t);
    KeepsRefsTrans(p.b.log, p2.b.log, p3.b.log);
    var p4 := OpenBlockHead(p3, g, t);
    OpenBlockHeadRefs(p3, g, t);
    KeepsRefsTrans(p.b.log, p3.b.log, p4.b.log);
  }

  // ---------------------------------------------------------------------
  // afterConsume, clause by clause

  lemma CloseVarRefs(p: ParserState, t: TokenKind)
    requires Wf(p) && RefSafe(p)
    ensures RefSafe(CloseVar(p, t)) && KeepsRefs(p.b.log, CloseVar(p, t).b.log)
  {
  }

  lemma CloseThemeDirRefs(p: ParserState, t: TokenKind)
    requires Wf(p) && RefSafe(p)
    ensures RefSafe(CloseThemeDir(p, t)) && KeepsRefs(p.b.log, CloseThemeDir(p, t).b.log)
  {
  }

  lemma WrapThemePathRefs(p: ParserState, t: TokenKind)
    requires Wf(p) && RefSafe(p)
    ensures RefSafe(WrapThemePath(p, t)) && KeepsRefs(p.b.log, WrapThemePath(p, t).b.log)
  {
  }

  lemma ChainIdentifierRefs(p: ParserState, t: TokenKind)
    requires Wf(p) && RefSafe(p)
    ensures var r := ChainIdentifier(p, t);
            r.Success? ==> RefSafe(r.value) && KeepsRefs(p.b.log, r.value.b.log)
  {
  }

  lemma CloseCommentRefs(p: ParserState, t: TokenKind)
    requires Wf(p) && RefSafe(p)
    ensures var r := CloseComment(p, t);
            r.Success? ==> RefSafe(r.value) && KeepsRefs(p.b.log, r.value.b.log)
  {
  }

  lemma OpenBodyRefs(p: ParserState, head: nat)
    requires Wf(p) && head < |p.b.log| && p.blockTokenText.Some? && RefSafe(p)
    ensures RefSafe(OpenBody(p, head)) && KeepsRefs(p.b.log, OpenBody(p, head).b.log)
  {
  }

  lemma NextBranchRefs(p: ParserState, head: nat)
    requires Wf(p) && head < |p.b.log| && AllOpen(p.b.log, p.statementsStack) && RefSafe(p)
    ensures RefSafe(NextBranch(p, head)) && KeepsRefs(p.b.log, NextBranch(p, head).b.log)
  {
  }

  lemma CloseBodyRefs(p: ParserState, head: nat)
    requires Wf(p) && head < |p.b.log| && AllOpen(p.b.log, p.statementsStack) && RefSafe(p)
    ensures var r := CloseBody(p, head);
            && RefSafe(r) && KeepsRefs(p.b.log, r.b.log)
            && (|p.statementsStack| > 0 ==> !IsRef(r.b.log[Top(p.statementsStack)]))
  {
  }

  lemma MatchOpenerRefs(p: ParserState, body: Option<nat>)
    requires Wf(p) && Held(p, body) && RefSafe(p)
    requires body.Some? ==> !IsRef(p.b.log[body.value])
    ensures RefSafe(MatchOpener(p, body)) && KeepsRefs(p.b.log, MatchOpener(p, body).b.log)
  {
  }

  lemma TerminateRefs(p: ParserState, head: nat)
    requires Wf(p) && head < |p.b.log| && AllOpen(p.b.log, p.statementsStack) && RefSafe(p)
    ensures RefSafe(Terminate(p, head)) && KeepsRefs(p.b.log, Terminate(p, head).b.log)
  {
    var body := if |p.statementsStack| > 0 then Some(Top(p.statementsStack)) else None;
    var p1 := CloseBody(p, head);
    CloseBodyRefs(p, head);
    MatchOpenerRefs(p1, body);
    KeepsRefsTrans(p.b.log, p1.b.log, MatchOpener(p1, body).b.log);
  }

  /** The head may itself become a field reference if the grammar says so;
      it is apart from the comment, variable and theme markers, so that
      keeps them safe. */
  lemma CloseBlockRefs(p: ParserState, g: Tables, t: TokenKind)
    requires Inv(p) && RefSafe(p)
    ensures RefSafe(CloseBlock(p, g, t)) && KeepsRefs(p.b.log, CloseBlock(p, g, t).b.log)
  {
    if p.markingBlock && t == BlockEnd {
      var head := p.blockMarker.value;
      var kind := p.blockType.value;
      var p1 := p.(b := Complete(p.b, head, kind), markingBlock := false);
      assert AllOpen(p1.b.log, p1.statementsStack);
      assert RefSafe(p1) && KeepsRefs(p.b.log, p1.b.log);
      if kind in g.blockStatements {
        OpenBodyRefs(p1, head);
        KeepsRefsTrans(p.b.log, p1.b.log, OpenBody(p1, head).b.log);
      } else if kind == ElseIfStatement || kind == ElseStatement {
        NextBranchRefs(p1, head);
        KeepsRefsTrans(p.b.log, p1.b.log, NextBranch(p1, head).b.log);
      } else if kind == BlockEndStatement {
        TerminateRefs(p1, head);
        KeepsRefsTrans(p.b.log, p1.b.log, Terminate(p1, head).b.log);
      }
    }
  }

  lemma DropBadHeadRefs(p: ParserState, t: TokenKind)
    requires Marked(p) && RefSafe(p)
    ensures RefSafe(DropBadHead(p, t)) && KeepsRefs(p.b.log, DropBadHead(p, t).b.log)
  {
  }

  /** The variable and theme clauses of afterConsume keep every
      field-reference node and the discipline. */
  lemma EarlyClausesRefs(p: ParserState, t: TokenKind)
    requires Inv(p) && RefSafe(p)
    ensures var p3 := WrapThemePath(CloseThemeDir(CloseVar(p, t), t), t);
            Inv(p3) && RefSafe(p3) && KeepsRefs(p.b.log, p3.b.log)
  {
    var p1 := CloseVar(p, t);
    CloseVarInv(p, t);
    CloseVarRefs(p, t);
    var p2 := CloseThemeDir(p1, t);
    CloseThemeDirInv(p1, t);
    CloseThemeDirRefs(p1, t);
    KeepsRefsTrans(p.b.log, p1.b.log, p2.b.log);
    WrapThemePathInv(p2, t);
    WrapThemePathRefs(p2, t);
    KeepsRefsTrans(p.b.log, p2.b.log, WrapThemePath(p2, t).b.log);
  }

  lemma AfterConsumeRefs(p: ParserState, g: Tables, t: TokenKind)
    requires Inv(p) && RefSafe(p)
    ensures var r := AfterConsume(p, g, t);
            r.Success? ==> RefSafe(r.value) && KeepsRefs(p.b.log, r.value.b.log)
  {
    var p3 := WrapThemePath(CloseThemeDir(CloseVar(p, t), t), t);
    EarlyClausesRefs(p, t);
    var r4 := ChainIdentifier(p3, t);
    ChainIdentifierInv(p3, t);
    ChainIdentifierRefs(p3, t);
    if r4.Success? {
      var p4 := r4.value;
      KeepsRefsTrans(p.b.log, p3.b.log, p4.b.log);
      var r5 := CloseComment(p4, t);
      CloseCommentInv(p4, t);
      CloseCommentRefs(p4, t);
      if r5.Success? {
        var p5 := r5.value;
        KeepsRefsTrans(p.b.log, p4.b.log, p5.b.log);
        var p6 := CloseBlock(p5, g, t);
        CloseBlockInv(p5, g, t);
        CloseBlockRefs(p5, g, t);
        KeepsRefsTrans(p.b.log, p5.b.log, p6.b.log);
        DropBadHeadRefs(p6, t);
        KeepsRefsTrans(p.b.log, p6.b.log, DropBadHead(p6, t).b.log);
      }
    }
  }

  // ---------------------------------------------------------------------
  // Iterations, the loop and the cleanup

  lemma StepRefs(p: ParserState, g: Tables)
    requires Inv(p) && Boundary(p) && RefSafe(p) && g.Valid() && !Eof(p.b)
    ensures Step(p, g).Success? ==> RefSafe(Step(p, g).value) && KeepsRefs(p.b.log, Step(p, g).value.b.log)
  {
    var t := p.b.tokens[p.b.pos].kind;
    var p1 := BeforeConsume(p, g, t);
    BeforeConsumeRefs(p, g, t);
    var p2 := p1.(b := Advance(p1.b));
    ConsumeInv(p, g, t);
    assert RefSafe(p2);
    AfterConsumeRefs(p2, g, t);
    var r := AfterConsume(p2, g, t);
    if r.Success? {
      KeepsRefsTrans(p.b.log, p2.b.log, r.value.b.log);
    }
  }

  lemma {:induction false} RunRefs(p: ParserState, g: Tables)
    requires Inv(p) && Boundary(p) && RefSafe(p) && g.Valid()
    ensures Run(p, g).Success? ==> RefSafe(Run(p, g).value) && KeepsRefs(p.b.log, Run(p, g).value.b.log)
    decreases |p.b.tokens| - p.b.pos
  {
    if !Eof(p.b) {
      StepInv(p, g);
      StepRefs(p, g);
      var q := Step(p, g);
      if q.Success? {
        assert Run(p, g) == Run(q.value, g);
        RunRefs(q.value, g);
        var r := Run(q.value, g);
        if r.Success? {
          KeepsRefsTrans(p.b.log, q.value.b.log, r.value.b.log);
        }
      }
    }
  }

  /** The cleanup resolves only open markers. */
  lemma EofCleanupRefs(p: ParserState)
    requires Marked(p)
    ensures KeepsRefs(p.b.log, EofCleanup(p).b.log)
  {
    var p1 :=
      if p.markingBlock then
        p.(b := ErrorMark(p.b, p.blockMarker.value, p.blockTokenText.value), markingBlock := false)
      else p;
    var p2 := if p1.markingComment then p1.(b := Drop(p1.b, p1.commentMarker.value)) else p1;
    assert KeepsRefs(p.b.log, p2.b.log);
    assert AllOpen(p2.b.log, p2.statementsStack);
  }

  /** Every field-reference node that the loop produces is still a
      field-reference node, unchanged, once parseTree has returned. */
  lemma ParseTreeRefs(p: ParserState, g: Tables)
    requires Inv(p) && Boundary(p) && RefSafe(p) && g.Valid()
    ensures var r := ParseTree(p, g);
            r.Success? ==> KeepsRefs(p.b.log, r.value.b.log)
  {
    RunRefs(p, g);
    RunInv(p, g);
    var q := Run(p, g);
    if q.Success? {
      EofCleanupRefs(q.value);
      KeepsRefsTrans(p.b.log, q.value.b.log, EofCleanup(q.value).b.log);
    }
  }
}

=== FILE: resolution.dfy ===
/** Which markers a parse leaves open. Every marker the parser opens ends up
    completed, dropped or marked as an error, with one exception: a comment
    start met while an earlier comment is still open takes over the comment
    marker, and nothing ever resolves the earlier one. */
module Resolution {
  import opened Tokens
  import opened Grammar
  import opened MarkerLog
  import opened BaseParser
  import opened Discipline
  import opened History

  /** Token `j` is a comment start, and another comment start follows it
      among the first `i` tokens. */
  predicate Superseded(ts: seq<Token>, j: nat, i: nat) {
    && j < i <= |ts| && ts[j].kind == CommentStart
    && LastIndex(ts, CommentStart, i).Some? && j < LastIndex(ts, CommentStart, i).value
  }

  lemma SupersededLater(ts: seq<Token>, j: nat, i: nat, i': nat)
    requires Superseded(ts, j, i) && i <= i' <= |ts|
    ensures Superseded(ts, j, i')
  {
    var v := LastIndex(ts, CommentStart, i).value;
    assert ts[v].kind == CommentStart && v < i';
  }

  /** An open marker `k` the parser still answers for: the root and wrapper
      markers, a body on the statements stack, the head, comment, variable or
      theme marker while its flag is set, or a superseded comment. */
  predicate Owned(p: ParserState, k: nat, i: nat) {
    && k < |p.b.log|
    && (|| k < 2
        || k in p.statementsStack
        || (p.markingBlock && p.blockMarker == Some(k))
        || (p.markingComment && p.commentMarker == Some(k))
        || (p.markingVar && p.varMarker == Some(k))
        || (p.markingTheme && p.themeMarker == Some(k))
        || Superseded(p.b.tokens, p.b.log[k].start, i))
  }

  /** Every open marker is owned, counting comment starts among the first `i` tokens. */
  predicate Accounted(p: ParserState, i: nat) {
    forall k :: 0 <= k < |p.b.log| && p.b.log[k].status == Open ==> Owned(p, k, i)
  }

  /** What an iteration needs of the state it starts from: no variable
      pending, the theme directive already resolved, and the comment marker
      opened at an earlier comment start. */
  predicate Settled(p: ParserState, t: TokenKind, i: nat) {
    && Wf(p) && CacheOk(p) && !p.markingVar
    && (p.markingTheme ==> p.b.log[p.themeMarker.value].status != Open)
    && (t == CommentStart ==>
          && p.b.pos < i <= |p.b.tokens| && p.b.tokens[p.b.pos].kind == CommentStart
          && (p.markingComment ==>
                var c := p.b.log[p.commentMarker.value].start;
                c < p.b.pos && p.b.tokens[c].kind == CommentStart))
  }

  lemma AccountedLater(p: ParserState, i: nat, i': nat)
    requires Accounted(p, i) && i <= i' <= |p.b.tokens|
    ensures Accounted(p, i')
  {
    forall k | 0 <= k < |p.b.log| && p.b.log[k].status == Open
      ensures Owned(p, k, i')
    {
      if Superseded(p.b.tokens, p.b.log[k].start, i) {
        SupersededLater(p.b.tokens, p.b.log[k].start, i, i');
      }
    }
  }

  // ---------------------------------------------------------------------
  // beforeConsume

  lemma OpenVarAccounts(p: ParserState, t: TokenKind, i: nat)
    requires Wf(p) && Accounted(p, i) && !p.markingVar
    ensures Accounted(OpenVar(p, t), i)
  {
  }

  /** A comment start while a comment is open supersedes the open one. */
  lemma OpenCommentAccounts(p: ParserState, t: TokenKind, i: nat)
    requires Wf(p) && Accounted(p, i)
    requires t == CommentStart ==>
               && p.b.pos < i <= |p.b.tokens| && p.b.tokens[p.b.pos].kind == CommentStart
               && (p.markingComment ==>
                     var c := p.b.log[p.commentMarker.value].start;
                     c < p.b.pos && p.b.tokens[c].kind == CommentStart)
    ensures Accounted(OpenComment(p, t), i)
  {
    if t == CommentStart && p.markingComment {
      var ts := p.b.tokens;
      var c := p.commentMarker.value;
      var last := LastIndex(ts, CommentStart, i);
      assert last.Some? && p.b.pos <= last.value;
      assert Superseded(ts, p.b.log[c].start, i);
    }
  }

  lemma OpenThemeAccounts(p: ParserState, t: TokenKind, i: nat)
    requires Wf(p) && Accounted(p, i)
    requires p.markingTheme ==> p.b.log[p.themeMarker.value].status != Open
    ensures Accounted(OpenTheme(p, t), i)
  {
  }

  lemma OpenBlockHeadAccounts(p: ParserState, g: Tables, t: TokenKind, i: nat)
    requires Wf(p) && CacheOk(p) && g.Valid() && Accounted(p, i)
    ensures Accounted(OpenBlockHead(p, g, t), i)
  {
    if t == BlockStart && !p.markingBlock {
      var (p1, next) := GetNextToken(p);
      var p2 := p1.(nextToken := next,
                    blockStartTokens := Lookup(g.statementMap, next),
                    blockType := Lookup(g.blockTypeMap, next));
      assert Accounted(p2, i);
      if p2.blockStartTokens.Some? {
        var (p3, text) := GetNextTokenText(p2);
        assert Accounted(p3, i);
      }
    }
  }

  lemma LapseThemeAccounts(p: ParserState, t: TokenKind, i: nat)
    requires Wf(p) && Accounted(p, i)
    requires p.markingTheme && t != ThemeVar ==> p.b.log[p.themeMarker.value].status != Open
    ensures Accounted(LapseTheme(p, t), i)
  {
  }

  /** beforeConsume keeps every open marker owned. */
  lemma BeforeConsumeAccounts(p: ParserState, g: Tables, t: TokenKind, i: nat)
    requires Settled(p, t, i) && g.Valid() && Accounted(p, i)
    ensures Accounted(BeforeConsume(p, g, t), i)
  {
    var p1 := OpenVar(p, t);
    OpenVarAccounts(p, t, i);
    var p2 := OpenComment(p1, t);
    OpenCommentAccounts(p1, t, i);
    var p3 := OpenTheme(p2, t);
    OpenThemeAccounts(p2, t, i);
    var p4 := OpenBlockHead(p3, g, t);
    OpenBlockHeadAccounts(p3, g, t, i);
    assert p3.themeMarker == p.themeMarker || t == ThemeVar;
    LapseThemeAccounts(p4, t, i);
  }

  /** A theme directive that stays pending past its own token was resolved
      before the iteration. */
  lemma BeforeConsumeThemeResolved(p: ParserState, g: Tables, t: TokenKind)
    requires Wf(p) && CacheOk(p) && g.Valid() && !p.markingVar
    requires p.markingTheme ==> p.b.log[p.themeMarker.value].status != Open
    ensures var r := BeforeConsume(p, g, t);
            t != ThemeVar && r.markingTheme ==> r.b.log[r.themeMarker.value].status != Open
  {
    BeforeFields(p, g, t);
    BeforeLog(p, g, t);
  }

  // ---------------------------------------------------------------------
  // afterConsume

  lemma CloseVarAccounts(p: ParserState, t: TokenKind, i: nat)
    requires Wf(p) && Accounted(p, i)
    ensures Accounted(CloseVar(p, t), i)
  {
  }

  lemma CloseThemeDirAccounts(p: ParserState, t: TokenKind, i: nat)
    requires Wf(p) && Accounted(p, i)
    ensures Accounted(CloseThemeDir(p, t), i)
  {
  }

  lemma WrapThemePathAccounts(p: ParserState, t: TokenKind, i: nat)
    requires Wf(p) && Accounted(p, i)
    requires t == StringLit && p.markingTheme ==> p.b.log[p.themeMarker.value].status != Open
    ensures Accounted(WrapThemePath(p, t), i)
  {
  }

  lemma ChainIdentifierAccounts(p: ParserState, t: TokenKind, i: nat)
    requires Wf(p) && Accounted(p, i)
    ensures ChainIdentifier(p, t).Success? ==> Accounted(ChainIdentifier(p, t).value, i)
  {
  }

  lemma CloseCommentAccounts(p: ParserState, t: TokenKind, i: nat)
    requires Wf(p) && Accounted(p, i)
    ensures CloseComment(p, t).Success? ==> Accounted(CloseComment(p, t).value, i)
  {
  }

  lemma OpenBodyAccounts(p: ParserState, head: nat, i: nat)
    requires Wf(p) && head < |p.b.log| && p.blockTokenText.Some? && Accounted(p, i)
    ensures Accounted(OpenBody(p, head), i)
  {
    var r := OpenBody(p, head);
    forall k | 0 <= k < |r.b.log| && r.b.log[k].status == Open
      ensures Owned(r, k, i)
    {
      if k == |p.b.log| {
        assert r.statementsStack[|r.statementsStack| - 1] == k;
      } else {
        assert p.b.log[k] == r.b.log[k] && Owned(p, k, i);
        if k in p.statementsStack {
          var j :| 0 <= j < |p.statementsStack| && p.statementsStack[j] == k;
          assert r.statementsStack[j] == k;
        }
      }
    }
  }

  /** Every entry of a stack but its top is still in the popped stack. */
  lemma InPop(s: seq<nat>, k: nat)
    requires |s| > 0 && k in s && k != Top(s)
    ensures k in Pop(s)
  {
    var j :| 0 <= j < |s| && s[j] == k;
    assert Pop(s)[j] == k;
  }

  lemma NextBranchAccounts(p: ParserState, head: nat, i: nat)
    requires Wf(p) && head < |p.b.log| && Accounted(p, i)
    ensures Accounted(NextBranch(p, head), i)
  {
    var r := NextBranch(p, head);
    if |p.statementsStack| > 0 {
      var top := Top(p.statementsStack);
      forall k | 0 <= k < |r.b.log| && r.b.log[k].status == Open
        ensures Owned(r, k, i)
      {
        if k == |p.b.log| {
          assert r.statementsStack[|r.statementsStack| - 1] == k;
        } else {
          assert k != top;
          assert p.b.log[k] == r.b.log[k] && Owned(p, k, i);
          if k in p.statementsStack {
            InPop(p.statementsStack, k);
            var j :| 0 <= j < |Pop(p.statementsStack)| && Pop(p.statementsStack)[j] == k;
            assert r.statementsStack[j] == k;
          }
        }
      }
    }
  }

  lemma CloseBodyAccounts(p: ParserState, terminator: nat, i: nat)
    requires Wf(p) && terminator < |p.b.log| && Accounted(p, i)
    ensures Accounted(CloseBody(p, terminator), i)
  {
    var r := CloseBody(p, terminator);
    if |p.statementsStack| > 0 {
      forall k | 0 <= k < |r.b.log| && r.b.log[k].status == Open
        ensures Owned(r, k, i)
      {
        assert k != Top(p.statementsStack);
        assert p.b.log[k] == r.b.log[k] && Owned(p, k, i);
        if k in p.statementsStack {
          InPop(p.statementsStack, k);
        }
      }
    }
  }

  lemma MatchOpenerAccounts(p: ParserState, body: Option<nat>, i: nat)
    requires Wf(p) && Held(p, body) && Accounted(p, i)
    ensures Accounted(MatchOpener(p, body), i)
  {
    var r := MatchOpener(p, body);
    if |p.blockStack| > 0 {
      var level := Top(p.blockStack);
      if Some("end_" + level.text) == p.blockTokenText {
        assert r.b.log[|p.b.log|].status != Open;
        forall k | 0 <= k < |r.b.log| && r.b.log[k].status == Open
          ensures Owned(r, k, i)
        {
          assert k < |p.b.log| && p.b.log[k] == r.b.log[k];
        }
      } else {
        forall k | 0 <= k < |r.b.log| && r.b.log[k].status == Open
          ensures Owned(r, k, i)
        {
          assert p.b.log[k] == r.b.log[k];
        }
      }
    }
  }

  lemma TerminateAccounts(p: ParserState, terminator: nat, i: nat)
    requires Wf(p) && terminator < |p.b.log| && Accounted(p, i)
    ensures Accounted(Terminate(p, terminator), i)
  {
    var body := if |p.statementsStack| > 0 then Some(Top(p.statementsStack)) else None;
    var p1 := CloseBody(p, terminator);
    CloseBodyAccounts(p, terminator, i);
    MatchOpenerAccounts(p1, body, i);
  }

  lemma CloseBlockAccounts(p: ParserState, g: Tables, t: TokenKind, i: nat)
    requires Wf(p) && Accounted(p, i)
    ensures Accounted(CloseBlock(p, g, t), i)
  {
    if p.markingBlock && t == BlockEnd {
      var head := p.blockMarker.value;
      var kind := p.blockType.value;
      var p1 := p.(b := Complete(p.b, head, kind), markingBlock := false);
      assert Accounted(p1, i);
      if kind in g.blockStatements {
        OpenBodyAccounts(p1, head, i);
      } else if kind == ElseIfStatement || kind == ElseStatement {
        NextBranchAccounts(p1, head, i);
      } else if kind == BlockEndStatement {
        TerminateAccounts(p1, head, i);
      }
    }
  }

  lemma DropBadHeadAccounts(p: ParserState, t: TokenKind, i: nat)
    requires Wf(p) && Accounted(p, i)
    ensures Accounted(DropBadHead(p, t), i)
  {
  }

  lemma AfterConsumeAccounts(p: ParserState, g: Tables, t: TokenKind, i: nat)
    requires Wf(p) && Accounted(p, i)
    requires t == StringLit && p.markingTheme ==> p.b.log[p.themeMarker.value].status != Open
    ensures AfterConsume(p, g, t).Success? ==> Accounted(AfterConsume(p, g, t).value, i)
  {
    var p1 := CloseVar(p, t);
    CloseVarAccounts(p, t, i);
    var p2 := CloseThemeDir(p1, t);
    CloseThemeDirAccounts(p1, t, i);
    assert p2.markingTheme == p.markingTheme && p2.themeMarker == p.themeMarker;
    assert t == StringLit ==> p2.b.log == p.b.log;
    var p3 := WrapThemePath(p2, t);
    WrapThemePathAccounts(p2, t, i);
    var r4 := ChainIdentifier(p3, t);
    ChainIdentifierAccounts(p3, t, i);
    if r4.Success? {
      var r5 := CloseComment(r4.value, t);
      CloseCommentAccounts(r4.value, t, i);
      if r5.Success? {
        var p6 := CloseBlock(r5.value, g, t);
        CloseBlockAccounts(r5.value, g, t, i);
        DropBadHeadAccounts(p6, t, i);
        assert AfterConsume(p, g, t) == Success(DropBadHead(p6, t));
      }
    }
  }

  // ---------------------------------------------------------------------
  // Iterations, the loop, the cleanup and the whole parse

  /** A good state about to read token `t` is settled for it. */
  lemma GoodSettled(p: ParserState)
    requires Good(p) && !Eof(p.b)
    ensures Settled(p, p.b.tokens[p.b.pos].kind, p.b.pos + 1)
  {
    if p.markingComment {
      var c := p.b.log[p.commentMarker.value].start;
      assert c < p.b.pos && p.b.tokens[c].kind == CommentStart;
    }
  }

  /** One iteration keeps every open marker owned. */
  lemma StepAccounts(p: ParserState, g: Tables)
    requires g.Valid() && !Eof(p.b)
    requires Settled(p, p.b.tokens[p.b.pos].kind, p.b.pos + 1) && Accounted(p, p.b.pos + 1)
    ensures Step(p, g).Success? ==> Accounted(Step(p, g).value, p.b.pos + 1)
  {
    var i := p.b.pos + 1;
    var t := p.b.tokens[p.b.pos].kind;
    BeforeConsumeAccounts(p, g, t, i);
    BeforeConsumeThemeResolved(p, g, t);
    var p1 := BeforeConsume(p, g, t);
    var p2 := p1.(b := Advance(p1.b));
    assert Accounted(p2, i);
    AfterConsumeAccounts(p2, g, t, i);
    StepUnfolds(p, g);
  }

  /** An iteration from a good, accounted state ends in one. */
  lemma StepKeepsAccounted(p: ParserState, g: Tables)
    requires Good(p) && g.Valid() && !Eof(p.b) && Accounted(p, p.b.pos)
    ensures Step(p, g).Success? ==> Good(Step(p, g).value) && Accounted(Step(p, g).value, Step(p, g).value.b.pos)
  {
    GoodSettled(p);
    AccountedLater(p, p.b.pos, p.b.pos + 1);
    StepAccounts(p, g);
    StepGood(p, g);
  }

  lemma {:induction false} RunAccounts(p: ParserState, g: Tables)
    requires Good(p) && g.Valid() && Accounted(p, p.b.pos)
    ensures Run(p, g).Success? ==> Accounted(Run(p, g).value, |p.b.tokens|)
    decreases |p.b.tokens| - p.b.pos
  {
    if !Eof(p.b) {
      StepKeepsAccounted(p, g);
      var q := Step(p, g);
      if q.Success? {
        assert Run(p, g) == Run(q.value, g);
        RunAccounts(q.value, g);
      }
    } else {
      assert Run(p, g) == Success(p);
    }
  }

  /** Every open marker is the root or wrapper marker, a body on the
      statements stack, the comment marker while its flag is set, or a
      superseded comment. */
  predicate OwnedButHead(p: ParserState, i: nat) {
    forall k :: 0 <= k < |p.b.log| && p.b.log[k].status == Open ==>
      || k < 2 || k in p.statementsStack
      || (p.markingComment && p.commentMarker == Some(k))
      || Superseded(p.b.tokens, p.b.log[k].start, i)
  }

  /** As `OwnedButHead`, with the comment marker no longer owned. */
  predicate OwnedByStack(p: ParserState, i: nat) {
    forall k :: 0 <= k < |p.b.log| && p.b.log[k].status == Open ==>
      k < 2 || k in p.statementsStack || Superseded(p.b.tokens, p.b.log[k].start, i)
  }

  /** The cleanup's first stage marks the head as an error. */
  lemma CleanupHeadAccounts(p: ParserState, i: nat)
    requires Wf(p) && Accounted(p, i) && !p.markingVar
    requires p.markingTheme ==> p.b.log[p.themeMarker.value].status != Open
    ensures var p1 :=
              if p.markingBlock then
                p.(b := ErrorMark(p.b, p.blockMarker.value, p.blockTokenText.value), markingBlock := false)
              else p;
            OwnedButHead(p1, i)
  {
  }

  /** The cleanup's second stage drops the comment marker. */
  lemma CleanupCommentAccounts(p: ParserState, i: nat)
    requires Wf(p) && OwnedButHead(p, i)
    ensures var p2 := if p.markingComment then p.(b := Drop(p.b, p.commentMarker.value)) else p;
            OwnedByStack(p2, i)
  {
  }

  /** The cleanup's last stage drops every body on the statements stack. */
  lemma DrainAccounts(p: ParserState, i: nat)
    requires Wf(p) && OwnedByStack(p, i)
    ensures var e := DrainStatements(p);
            forall k :: 0 <= k < |e.b.log| && e.b.log[k].status == Open ==>
              k < 2 || Superseded(e.b.tokens, e.b.log[k].start, i)
  {
    var e := DrainStatements(p);
    forall k | 0 <= k < |e.b.log| && e.b.log[k].status == Open
      ensures k < 2 || Superseded(e.b.tokens, e.b.log[k].start, i)
    {
      if k !in p.statementsStack {
        assert e.b.log[k] == p.b.log[k];
      } else {
        assert false;
      }
    }
  }

  /** After the cleanup the only open markers are the root and wrapper
      markers and superseded comments. */
  lemma CleanupAccounts(p: ParserState, i: nat)
    requires Good(p) && Accounted(p, i)
    ensures var e := EofCleanup(p);
            forall k :: 0 <= k < |e.b.log| && e.b.log[k].status == Open ==>
              k < 2 || Superseded(p.b.tokens, e.b.log[k].start, i)
  {
    var p1 :=
      if p.markingBlock then
        p.(b := ErrorMark(p.b, p.blockMarker.value, p.blockTokenText.value), markingBlock := false)
      else p;
    CleanupHeadAccounts(p, i);
    var p2 := if p1.markingComment then p1.(b := Drop(p1.b, p1.commentMarker.value)) else p1;
    CleanupCommentAccounts(p1, i);
    DrainAccounts(p2, i);
    assert DrainStatements(p2) == EofCleanup(p);
  }

  /** After parseTree, the only open markers are the root and wrapper
      markers and superseded comments. */
  lemma ParseTreeAccounts(g: Tables, tokens: seq<Token>)
    requires g.Valid()
    ensures var r := ParseTree(Initial(StartBuilder(tokens)), g);
            r.Success? ==>
              forall k :: 0 <= k < |r.value.b.log| && r.value.b.log[k].status == Open ==>
                k < 2 || Superseded(tokens, r.value.b.log[k].start, |tokens|)
  {
    var p0 := Initial(StartBuilder(tokens));
    InitialGood(tokens);
    assert Accounted(p0, 0);
    RunAccounts(p0, g);
    RunGood(p0, g);
    var q := Run(p0, g);
    if q.Success? {
      CleanupAccounts(q.value, |tokens|);
      assert ParseTree(p0, g) == Success(EofCleanup(q.value));
    }
  }

  /** After a successful parse, every marker still open was opened at a
      comment start that a later comment start superseded: nothing else is
      left unresolved. */
  lemma ParseResolves(g: Tables, root: NodeType, tokens: seq<Token>)
    requires g.Valid()
    ensures var r := Parse(g, root, tokens);
            r.Success? ==>
              forall k :: 0 <= k < |r.value.log| && r.value.log[k].status == Open ==>
                var s := r.value.log[k].start;
                && s < |tokens| && tokens[s].kind == CommentStart
                && exists j :: s < j < |tokens| && tokens[j].kind == CommentStart
  {
    ParseTreeAccounts(g, tokens);
    var r := ParseTree(Initial(StartBuilder(tokens)), g);
    if r.Success? {
      var e := r.value;
      var b := Complete(Complete(e.b, 1, Statements), 0, root);
      assert Parse(g, root, tokens) == Success(b);
      forall k | 0 <= k < |b.log| && b.log[k].status == Open
        ensures var s := b.log[k].start;
                && s < |tokens| && tokens[s].kind == CommentStart
                && exists j :: s < j < |tokens| && tokens[j].kind == CommentStart
      {
        assert k >= 2 && b.log[k] == e.b.log[k];
        var s := b.log[k].start;
        assert Superseded(tokens, s, |tokens|);
        var j := LastIndex(tokens, CommentStart, |tokens|).value;
        assert s < j < |tokens| && tokens[j].kind == CommentStart;
      }
    }
  }
}

=== FILE: tokens.dfy ===
/** Vocabulary shared by the tree builder: token kinds, tokens, node types,
    and the optional/result wrappers used for Java's nullable values. */
module Tokens {

  /** A value that Java may leave `null`. */
  datatype Option<+T> = None | Some(value: T)

  /** The token kinds the parser tests by name. Every other kind the lexer
      produces (block keywords such as `if` or `loop`, punctuation, plain
      template content) is `Other`, told apart by its tag. */
  datatype TokenKind =
    | Var            // SS_VAR
    | Identifier     // SS_IDENTIFIER
    | CommentStart   // SS_COMMENT_START
    | CommentEnd     // SS_COMMENT_END
    | ThemeVar       // SS_THEME_VAR
    | StringLit      // SS_STRING
    | BlockStart     // SS_BLOCK_START
    | BlockEnd       // SS_BLOCK_END
    | Other(tag: nat)

  /** A lexer token: its kind and its literal text. */
  datatype Token = Token(kind: TokenKind, text: string)

  /** Element types the parser gives to completed markers. */
  datatype NodeType =
    | NamedVar
    | FieldReference
    | CommentStatement
    | ThemeDir
    | ThemeFilePath
    | Statements
    | BlockStatement
    | ElseIfStatement
    | ElseStatement
    | BlockEndStatement
    | OtherNode(tag: nat)

  /** The null dereferences the parser can run into on malformed input. */
  datatype Crash =
    | NullVarMarker      // an identifier before any variable token
    | NullCommentMarker  // a comment end before any comment start

  /** Outcome of a parsing step: the new state, or the crash that ends the parse. */
  datatype Result<+T> = Success(value: T) | Failure(error: Crash) {

    predicate IsFailure() {
      Failure?
    }

    function PropagateFailure<U>(): Result<U>
      requires Failure?
    {
      Failure(error)
    }

    function Extract(): T
      requires Success?
    {
      value
    }
  }

  /** Index of the last token of kind `k` among the first `i` tokens of
      `ts`; `None` when none of them has that kind. */
  function LastIndex(ts: seq<Token>, k: TokenKind, i: nat): (r: Option<nat>)
    requires i <= |ts|
    ensures r.Some? ==> r.value < i && ts[r.value].kind == k
    ensures r.Some? ==> forall j :: r.value < j < i ==> ts[j].kind != k
    ensures r.None? ==> forall j :: 0 <= j < i ==> ts[j].kind != k
  {
    if i == 0 then None
    else if ts[i - 1].kind == k then Some(i - 1)
    else LastIndex(ts, k, i - 1)
  }
}
